=== FILE: README.md ===
# Area selection and coverage path planning

This project models two parts of a map application in Dafny and proves
properties about them.

- **The area-selection hook** (`useAreaSelection`). The user drags a
  rectangle on an OpenLayers map:
  - pointer-down records the anchor;
  - each pointer-move replaces the preview rectangle in the zone layer;
  - pointer-up applies a minimum-size test, then either discards the preview
    or commits its ring as the selected area.
  - A route effect sends each committed area to the planner and draws the
    returned path in the path layer.
  - Mount effects attach the zone layer, register the handlers and switch
    drag-panning off for the hook's lifetime.
- **The coverage planner** (`compute_shortest_path`, compiled to WebAssembly):
  - it rejects polygons of fewer than three points and closes the ring;
  - it takes the bounding box and chooses horizontal swaths when the box is
    at least as wide as it is tall;
  - it lays swath lines 10 units apart, starting half a width in and ending
    with a line half a width inside the far edge;
  - it cuts each line with the half-open edge-crossing test and pairs the
    sorted crossings into segments;
  - it sorts the segments by line and joins them back and forth into a
    boustrophedon path.

Modules:

- `Results`: `Option` and `Result`.
- `Geometry`: points, the preview rectangle, the minimum-size test.
- `Sorting`: a stable sort by a real key, standing for Rust's `sort_by` with
  `partial_cmp`.
- `Planner`: the planner.
- `Selection`: the pointer handlers as pure transitions on one state record,
  plus the invariant every reachable state keeps.
- `Routing`: the route effect's lifecycle and the mount and unmount effects.
- `Scenarios`: concrete gestures and fields worked through the model.

The hook's mutable refs are fields of `Selection.State`:

- `startCoordinateRef` is `anchor`;
- `isDrawingRef` is `drawing`;
- `dragBoxRef` is `dragBox`;
- the `area` React state is `area`;
- the zone layer's vector source is `zone`, a multiset of features.

Every `new Feature` takes a fresh id from `nextId`, so two previews with the
same ring are still different features. The map appears as a parameter
(`MapView`): either absent, or a pixel-to-world conversion function.

Five behaviours of the code shape the model:

- **An empty route.** When the planner returns an empty path, the route
  effect still adds one line feature with no points. It does not leave the
  path layer empty (`Scenarios.SmallAreaDrawsEmptyLine`).
- **Drag-panning.** It is switched off when the handlers are registered at
  mount and back on at unmount (`Routing.PanRestoredAtTeardown`).
- **The planner call.** It is synchronous: each committed area is planned
  and drawn within one run of the route effect.
- **The zone source outlives the hook.** It is a module-level singleton, and
  unmounting only detaches its layer. A later mount starts with the
  previous mount's committed feature still in it
  (`Selection.RemountKeepsLeftover`).
- **The preview handle after pointer-down.** Pointer-down removes the old
  preview from the source but never resets `dragBoxRef`. A second gesture
  with no move in between therefore commits the first gesture's rectangle
  again (`Scenarios.StaleHandleRecommits`).

## Model

| member | source | states |
|---|---|---|
| Geometry.Rectangle | src/hooks/useAreaSelection.ts:65-88 | the preview ring is axis-aligned, wound bottom-left, bottom-right, top-right, top-left, encloses the anchor and the pointer, and every side passes through one of their coordinates |
| Geometry.RectangleUnique | src/hooks/useAreaSelection.ts:65-88 | any ring with those properties is exactly the preview rectangle |
| Geometry.RectangleSymmetric | src/hooks/useAreaSelection.ts:65-88 | dragging from a to c or from c to a gives the same ring |
| Geometry.MinimumSizeMeaning | src/hooks/useAreaSelection.ts:119-124 | a gesture passes the size test iff it spans at least minSize on both axes, in either direction |
| Geometry.MinimumSizeSymmetric | src/hooks/useAreaSelection.ts:119-124 | the size test does not depend on the direction of the drag |
| Selection.RemoveFeature | src/hooks/useAreaSelection.ts:40-42 | removing the preview takes one copy of it out of the source; a missing handle or a feature not in the source changes nothing |
| Selection.PointerDown | src/hooks/useAreaSelection.ts:31-49 | without a map the event is unhandled and nothing changes; with one, the anchor is the converted pixel, the old preview leaves the source, its handle is kept, drawing starts, and the event is handled |
| Selection.PointerMove | src/hooks/useAreaSelection.ts:51-102 | without a map, an anchor or a drag in progress nothing changes; otherwise a new feature holding the rectangle from anchor to pointer replaces the old preview in the source |
| Selection.PointerUp | src/hooks/useAreaSelection.ts:104-144 | the event is never reported handled; with a guard failing nothing changes; a gesture failing the size test at the release point drops the preview and stops drawing; one passing it commits the preview's ring and leaves the source holding that preview alone |
| Selection.StepPreservesValid | src/hooks/useAreaSelection.ts:31-144 | every handler keeps the invariant: the source is empty or holds only the current preview, the preview is a rectangle with an issued id, the area is empty or a rectangle ring, a drag has an anchor |
| Selection.DownPreservesValid | src/hooks/useAreaSelection.ts:31-49 | pointer-down keeps the invariant |
| Selection.MovePreservesValid | src/hooks/useAreaSelection.ts:51-102 | pointer-move keeps the invariant |
| Selection.UpPreservesValid | src/hooks/useAreaSelection.ts:104-144 | pointer-up keeps the invariant |
| Selection.RunPreservesValid | src/hooks/useAreaSelection.ts:31-144 | any event sequence keeps that invariant |
| Selection.InitValid | src/hooks/useAreaSelection.ts:20-29 | the state at the first mount satisfies the invariant, with an empty area and an empty source |
| Selection.ReachableValid | src/hooks/useAreaSelection.ts:20-144 | every state reachable from the first mount satisfies the invariant |
| Selection.RemountKeepsLeftover | src/hooks/useAreaSelection.ts:38-102 | after a later mount, a down followed by one or more moves leaves the previous mount's committed feature beside the latest preview: two features, and the invariant broken |
| Selection.LeftoverOutlivesMoves | src/hooks/useAreaSelection.ts:51-102 | a feature in the source that is not the preview stays through any run of moves, beside exactly the latest preview |
| Selection.MoveKeepsLeftover | src/hooks/useAreaSelection.ts:90-98 | one move removes only the preview it holds a handle to and adds the new one, so any other feature stays |
| Selection.MoveReplacesPreview | src/hooks/useAreaSelection.ts:90-98 | after a move the source holds exactly the new preview, which differs from the one it replaced |
| Selection.MovesNeverAccumulate | src/hooks/useAreaSelection.ts:51-102 | one or more consecutive moves during a drag leaves exactly one preview in the source, keeps the area and keeps the drag going |
| Selection.NothingWithoutDown | src/hooks/useAreaSelection.ts:53-59 | from mount, moves and ups with no pointer-down among them change nothing |
| Selection.NothingWithoutMap | src/hooks/useAreaSelection.ts:33 | without a map no event sequence changes the state |
| Selection.AreaNeverCleared | src/hooks/useAreaSelection.ts:137 | once an area is committed, no later gesture makes it empty again |
| Routing.RouteEffect | src/hooks/useAreaSelection.ts:192-215 | without a map or with an empty area nothing happens; a planner error leaves the layer untouched and is recorded; a path becomes the only line in the attached path layer, with a cleanup pending |
| Routing.NewAreaReplacesRoute | src/hooks/useAreaSelection.ts:207-209 | after a new area of three or more points, the path layer holds that area's route and nothing else |
| Routing.EmptyAreaDrawsNothing | src/hooks/useAreaSelection.ts:193 | an empty area draws nothing: the layer stays as the previous cleanup left it |
| Routing.QuietStep | src/hooks/useAreaSelection.ts:192-215 | a route effect run keeps "no pending cleanup implies nothing drawn and layer detached" |
| Routing.HistoryKeepsQuiet | src/hooks/useAreaSelection.ts:192-215 | any sequence of committed areas keeps that property |
| Routing.NoOrphanRoute | src/hooks/useAreaSelection.ts:211-214 | after any sequence of committed areas, unmounting leaves no route drawn and the path layer detached |
| Routing.CommittedAreaPlannable | src/hooks/useAreaSelection.ts:133-137 | an area the handlers commit is never rejected by the planner |
| Routing.GesturesYieldOneRoute | src/hooks/useAreaSelection.ts:192-208 | after any gestures from mount that commit an area, the route effect draws exactly one line and records no error |
| Routing.Setup | src/hooks/useAreaSelection.ts:146-178 | with a map, mounting attaches the zone layer, registers the handlers and leaves drag-panning off if the map has it; without one nothing changes |
| Routing.Teardown | src/hooks/useAreaSelection.ts:158-189 | unmounting detaches the zone layer, deregisters the handlers and switches drag-panning back on |
| Routing.PanRestoredAtTeardown | src/hooks/useAreaSelection.ts:175-188 | drag-panning is off while mounted and on after unmount, even if it was off before mount |
| Sorting.Insert | wasm/src/lib.rs:84 | inserting into a sorted sequence gives a sorted permutation with one more element; x goes first exactly when its key is not larger than the head's |
| Sorting.InsertionPoint | wasm/src/lib.rs:84 | the insertion point has only smaller keys before it and a key not smaller at it |
| Sorting.InsertAtPoint | wasm/src/lib.rs:84 | Insert puts x exactly at the insertion point, after the smaller keys and ahead of equal ones, which is the stable placement |
| Sorting.SortBy | wasm/src/lib.rs:103-109 | the result is sorted by the key, a permutation of the input, and the input itself when that is already sorted |
| Planner.CloseRing | wasm/src/lib.rs:16-19 | the ring starts with the input, ends where it starts, grows by one point exactly when the first and last points differ, and adds no new point |
| Planner.MinOf | wasm/src/lib.rs:22-25 | the fold's minimum is one of the values and no larger than any |
| Planner.MaxOf | wasm/src/lib.rs:22-25 | the fold's maximum is one of the values and no smaller than any |
| Planner.BoundingBox | wasm/src/lib.rs:21-25 | every point lies in the box and each of its four sides is attained by some point |
| Planner.SwathFrom | wasm/src/lib.rs:34-38 | the loop's lines start at the seed, step by the swath width, stay within the limit, and stop less than a width before passing it |
| Planner.SwathLines | wasm/src/lib.rs:31-54 | the lines strictly increase with no gap wider than one swath; the first is half a width in from the low edge whenever the loop runs; all but the last sit on that grid; and the last is half a width inside the high edge |
| Planner.CrossesMeansSidesDiffer | wasm/src/lib.rs:69 | the half-open crossing test holds iff the edge's ends lie on different sides of the line |
| Planner.Interpolate | wasm/src/lib.rs:70-72 | a crossing lies between the cross coordinates of the edge's ends |
| Planner.Crossings | wasm/src/lib.rs:60-83 | there are at most as many crossings as edges, and none for a ring of fewer than two points |
| Planner.CrossingMultiplicity | wasm/src/lib.rs:62-83 | each value occurs among the crossings exactly as often as there are edges that pass the half-open test and meet the line there, so each edge contributes its one meeting point and nothing else appears |
| Planner.MultiplicityFrom | wasm/src/lib.rs:62-83 | the same count restricted to the ring from point m on, the induction behind CrossingMultiplicity |
| Planner.CrossingsExact | wasm/src/lib.rs:62-83 | every crossing is the meeting point of an edge that passes the half-open test, and every such edge's meeting point is among the crossings |
| Planner.CrossingCount | wasm/src/lib.rs:62-83 | there are exactly as many crossings as edges passing the half-open test |
| Planner.CrossingCountFrom | wasm/src/lib.rs:62-83 | the crossings from ring point m on number the crossing edges numbered m or later |
| Planner.CrossingsStep | wasm/src/lib.rs:62-83 | the crossings from point m on are edge m's meeting point, if it passes the test, followed by the crossings from point m + 1 on |
| Planner.CrossingsFromEdges | wasm/src/lib.rs:62-83 | every crossing from point m on is the meeting point of a crossing edge numbered m or later |
| Planner.EdgesGiveCrossings | wasm/src/lib.rs:62-83 | the meeting point of every crossing edge numbered m or later is among the crossings from point m on |
| Planner.CrossingsInRange | wasm/src/lib.rs:60-83 | every crossing lies within the ring's cross-axis extent |
| Planner.CrossingLineInRange | wasm/src/lib.rs:60-83 | a line that meets the ring lies within the ring's extent along the swath axis |
| Planner.CrossingParity | wasm/src/lib.rs:62-69 | the crossing count is odd iff the first and last ring points lie on different sides of the line |
| Planner.ClosedRingCrossingsEven | wasm/src/lib.rs:62-69 | a closed ring meets every line an even number of times |
| Planner.PairUp | wasm/src/lib.rs:85-99 | segment k runs along the line from crossing 2k to crossing 2k+1, and an odd trailing crossing is dropped |
| Planner.LineSegments | wasm/src/lib.rs:84-99 | one line gives half as many segments as crossings, each lying on the line, running in the increasing cross direction, with both ends at crossings, and each starting no earlier than the previous one ends |
| Planner.PairsOfCrossings | wasm/src/lib.rs:84-99 | pairing sorted crossings gives segments whose ends are crossings and which follow one another without overlapping |
| Planner.AllSegments | wasm/src/lib.rs:59-100 | every segment lies on one of the swath lines and runs in the increasing cross direction, every line's segments are all collected, and there are exactly as many segments as the lines cut out in total |
| Planner.OnlyLineSegmentsCollected | wasm/src/lib.rs:59-100 | every collected segment is one of those its own line cuts out, so nothing else is added |
| Planner.LineBlock | wasm/src/lib.rs:59-100 | line j's segments appear as one block, in the order the line cuts them, right after the segments of the lines before it |
| Planner.BlockOf | wasm/src/lib.rs:59-100 | the same block structure for collecting over lines with any cut function |
| Planner.CollectedByCut | wasm/src/lib.rs:59-100 | collecting the ring's segments line by line is the generic collection with the ring's own cut, and so is the count |
| Planner.Boustrophedon | wasm/src/lib.rs:110-124 | the path has two points per segment; segment i is driven start to end when i is even and end to start when odd |
| Planner.LayoutShape | wasm/src/lib.rs:16-54 | the plan uses the closed ring, its bounding box, horizontal swaths iff the box is at least as wide as tall, and the swath lines across the chosen axis |
| Planner.PlanSegmentsSorted | wasm/src/lib.rs:102-109 | the plan's segments are sorted by line and are a permutation of the segments cut out line by line |
| Planner.ComputeShortestPath | wasm/src/lib.rs:10-15 | the planner fails iff the polygon has fewer than three points, and then with TooFewPoints |
| Planner.PathAlternates | wasm/src/lib.rs:110-124 | the planned path visits each sorted segment once, alternating direction |
| Planner.AllSegmentsInLineOrder | wasm/src/lib.rs:59-100 | segments collected over increasing lines are already sorted by line |
| Planner.ConcatInLineOrder | wasm/src/lib.rs:59-100 | for any per-line cut that keeps segments on their own line, collecting over strictly increasing lines gives segments sorted by line, each lying on one of the lines |
| Planner.SegmentSortKeepsOrder | wasm/src/lib.rs:102-109 | the segment sort never reorders: the plan's segments are those cut out, in line order |
| Planner.NoCrossingDropped | wasm/src/lib.rs:85-87 | on a closed ring, as the planner builds, each line's crossings pair up exactly and no crossing is left over |
| Planner.LineSegmentsInBox | wasm/src/lib.rs:84-99 | one line's segments lie inside any box holding the ring |
| Planner.AllSegmentsInBox | wasm/src/lib.rs:59-100 | all lines' segments lie inside any box holding the ring |
| Planner.PermutedSegmentsInBox | wasm/src/lib.rs:103-109 | reordering segments keeps them in any box that held them |
| Planner.BoustrophedonInBox | wasm/src/lib.rs:110-124 | a path through segments inside a box stays inside it |
| Planner.ClosedRingInField | wasm/src/lib.rs:16-19 | closing the ring adds no point outside the polygon's bounding box |
| Planner.PathInsideField | wasm/src/lib.rs:10-127 | every point of the planned path lies in the bounding box of the input polygon |
| Scenarios.AcceptedDrag | src/hooks/useAreaSelection.ts:104-141 | a drag from (0, 0) to (0.0002, 0.0002) commits that rectangle and leaves one feature in the zone |
| Scenarios.RejectedDrag | src/hooks/useAreaSelection.ts:119-128 | a drag of 0.00005 on each axis commits nothing and leaves the zone empty |
| Scenarios.CommitUsesLastMove | src/hooks/useAreaSelection.ts:116-137 | the committed ring is the last move's rectangle, not one reaching the release point |
| Scenarios.SizeTestUsesUpPoint | src/hooks/useAreaSelection.ts:116-129 | the size test measures to the release point, so a thin release rejects a large preview |
| Scenarios.StaleHandleRecommits | src/hooks/useAreaSelection.ts:39-42 | pointer-down keeps the removed preview's handle, so a down and up with no move between commits the earlier rectangle again and puts its feature back |
| Scenarios.WideFieldLines | wasm/src/lib.rs:31-42 | an extent of 0 to 20 gets the lines 5 and 15 |
| Scenarios.WideFieldCrossings | wasm/src/lib.rs:60-83 | a horizontal line strictly inside the 30 by 20 field meets its right side, then its left side |
| Scenarios.TwoPasses | wasm/src/lib.rs:110-124 | two segments are driven forwards, then backwards |
| Scenarios.PlanForWideField | wasm/src/lib.rs:10-127 | the 30 by 20 field gets two horizontal passes, the second driven backwards |
| Scenarios.NoSegmentsBeside | wasm/src/lib.rs:60-99 | lines passing below every ring point cut no segments |
| Scenarios.SingleSwathLine | wasm/src/lib.rs:31-42 | an extent shorter than one swath gets only the corrective line, half a width inside its high edge |
| Scenarios.NarrowFieldHasNoPath | wasm/src/lib.rs:31-99 | a field that fits in a square half a swath across gets an empty path: its only line passes beside it |
| Scenarios.SquareBoxIsNarrow | wasm/src/lib.rs:21-25 | points in a half-swath square have a bounding box less than half a swath across on both axes |
| Scenarios.SmallFieldHasNoPath | wasm/src/lib.rs:31-99 | the AcceptedDrag selection, a 0.0002 square, gets an empty path |
| Scenarios.SmallAreaDrawsEmptyLine | src/hooks/useAreaSelection.ts:194-208 | committing that area draws one line with no points; the path layer is not left empty |

## Left out

- Floating point:
  - coordinates are exact reals;
  - swath line positions are exact multiples of the width, with no
    accumulated rounding from repeated `+=`;
  - the `f64::MAX`/`f64::MIN` fold seeds are unnecessary because the ring is
    never empty.
- The `f64::EPSILON` skip of near-horizontal (or near-vertical) edges is
  left out. With exact reals the half-open test already rejects edges whose
  ends coincide on the swath axis. Edges with a non-zero difference below
  `f64::EPSILON` are treated as ordinary edges.
- NaN coordinates are left out. With NaN, `partial_cmp(..).unwrap()` panics.
- JavaScript/Rust value conversion (`from_value`, `to_value`) and their error
  messages are left out: the planner takes and returns Dafny sequences.
- Cursor styling, `preventDefault`/`stopPropagation`, the route's stroke
  style and `console.log` are left out: they have no effect on the modelled
  state.
- The `geometry instanceof Polygon` check in pointer-up is left out. The
  preview is always built as a polygon, so that branch never returns early.
- The zone source's `!source` guards are left out. The source is created
  with the layer at module load and is always present.
- Re-registration of the pointer handlers when their dependencies change is
  left out. `Routing.Setup`/`Routing.Teardown` model one mount and one
  unmount.
- The zone-layer mount effect and the handler-registration effect are two
  effects in the code and one pair of functions here. Their observable
  results are combined in `Routing.Interactions`.
- Routing.RouteEffect: a planner failure is a thrown exception in the code.
  The model records it and leaves the layer untouched, which is what happens
  before the throw. React's error handling after it is not modelled.
- Selection.Init: is the state at the first mount only, with an empty zone
  source. `Selection.ReachableValid` and `Selection.MovesNeverAccumulate`
  hold from there. At a later mount the source still holds the previous
  mount's committed feature, and that invariant does not hold
  (`Selection.Remount`, `Selection.RemountKeepsLeftover`).
- The map bootstrap (`useInitMap`), the tile source and the layer
  definitions are not part of this model.

=== FILE: geometry.dfy ===
/**
  World coordinates and the selection geometry computed from two of them:
  the preview rectangle and the minimum-size test applied on pointer-up.
 */
module Geometry {

  /** A world coordinate (x, y), as OpenLayers' `Coordinate` and the planner's `Point`. */
  type Point = (real, real)

  /** Smallest gesture, in world units, accepted on either axis. */
  const MinSize: real := 0.0001

  function Min(a: real, b: real): (m: real)
    ensures m <= a && m <= b
    ensures m == a || m == b
  {
    if a <= b then a else b
  }

  function Max(a: real, b: real): (m: real)
    ensures m >= a && m >= b
    ensures m == a || m == b
  {
    if a >= b then a else b
  }

  function Abs(x: real): (r: real)
    ensures r >= 0.0
    ensures r == x || r == -x
  {
    if x < 0.0 then -x else x
  }

  /**
    A four-corner ring in the fixed winding order bottom-left, bottom-right,
    top-right, top-left, with its sides parallel to the axes.
   */
  predicate IsRectangleRing(ring: seq<Point>) {
    && |ring| == 4
    && ring[0].0 == ring[3].0 && ring[1].0 == ring[2].0
    && ring[0].1 == ring[1].1 && ring[2].1 == ring[3].1
    && ring[0].0 <= ring[1].0 && ring[0].1 <= ring[2].1
  }

  /** Point p lies in the closed axis-aligned box spanned by a rectangle ring. */
  predicate Encloses(ring: seq<Point>, p: Point)
    requires IsRectangleRing(ring)
  {
    ring[0].0 <= p.0 <= ring[1].0 && ring[0].1 <= p.1 <= ring[2].1
  }

  /** Every side of the ring passes through a coordinate of a or c: no larger box qualifies. */
  predicate Tight(ring: seq<Point>, a: Point, c: Point)
    requires IsRectangleRing(ring)
  {
    && (ring[0].0 == a.0 || ring[0].0 == c.0)
    && (ring[1].0 == a.0 || ring[1].0 == c.0)
    && (ring[0].1 == a.1 || ring[0].1 == c.1)
    && (ring[2].1 == a.1 || ring[2].1 == c.1)
  }

  /**
    The preview rectangle spanned by the drag anchor a and the current
    pointer position c: per-axis minimum and maximum, corners in the fixed
    winding order. The result is the smallest such ring enclosing both points.
   */
  function Rectangle(a: Point, c: Point): (ring: seq<Point>)
    ensures IsRectangleRing(ring)
    ensures Encloses(ring, a) && Encloses(ring, c)
    ensures Tight(ring, a, c)
  {
    var minX := Min(a.0, c.0);
    var maxX := Max(a.0, c.0);
    var minY := Min(a.1, c.1);
    var maxY := Max(a.1, c.1);
    [(minX, minY), (maxX, minY), (maxX, maxY), (minX, maxY)]
  }

  /** The characterisation in Rectangle's contract pins the ring down completely. */
  lemma RectangleUnique(a: Point, c: Point, ring: seq<Point>)
    requires IsRectangleRing(ring)
    requires Encloses(ring, a) && Encloses(ring, c) && Tight(ring, a, c)
    ensures ring == Rectangle(a, c)
  {
    var r := Rectangle(a, c);
    assert ring[0] == r[0] && ring[1] == r[1] && ring[2] == r[2] && ring[3] == r[3];
  }

  /** Dragging from a to c or from c to a draws the same rectangle. */
  lemma RectangleSymmetric(a: Point, c: Point)
    ensures Rectangle(a, c) == Rectangle(c, a)
  {
    RectangleUnique(a, c, Rectangle(c, a));
  }

  /**
    The pointer-up size test: the gesture from anchor a to pointer-up point c
    counts only when it spans at least minSize on BOTH axes.
   */
  predicate IsAboveMinimumSize(a: Point, c: Point, minSize: real)
  {
    !(Abs(c.0 - a.0) < minSize || Abs(c.1 - a.1) < minSize)
  }

  /** The size test, stated without absolute values: each axis is covered in one direction or the other. */
  lemma MinimumSizeMeaning(a: Point, c: Point, minSize: real)
    ensures IsAboveMinimumSize(a, c, minSize) <==>
      && (a.0 + minSize <= c.0 || c.0 + minSize <= a.0)
      && (a.1 + minSize <= c.1 || c.1 + minSize <= a.1)
  {
  }

  /** The size test does not depend on the drag direction. */
  lemma MinimumSizeSymmetric(a: Point, c: Point, minSize: real)
    ensures IsAboveMinimumSize(a, c, minSize) == IsAboveMinimumSize(c, a, minSize)
  {
  }
}

=== FILE: planner.dfy ===
/**
  The coverage-path planner `compute_shortest_path`: it closes the field
  polygon, chooses the swath direction from its bounding box, cuts the polygon
  with parallel swath lines, pairs the sorted crossings into segments and
  joins the segments into a boustrophedon (back-and-forth) path.

  Arithmetic is exact over `real`; see README for what that leaves out.
 */
module Planner {
  import opened Results
  import opened Geometry
  import opened Sorting

  datatype PlanError = TooFewPoints

  /** Distance between neighbouring swath lines, in world units. */
  const SwathWidth: real := 10.0

  /** A piece of one swath line lying inside the polygon. */
  datatype Segment = Segment(start: Point, end: Point)

  /** The field's axis-aligned bounding box. */
  datatype Box = Box(minX: real, maxX: real, minY: real, maxY: real)

  // ---------------------------------------------------------------------------
  // Ring closure

  /** Appends the first point when it differs from the last one. */
  function CloseRing(coords: seq<Point>): (ring: seq<Point>)
    requires |coords| > 0
    ensures |ring| >= |coords| && ring[..|coords|] == coords
    ensures ring[0] == ring[|ring| - 1]
    ensures |ring| == if coords[0] == coords[|coords| - 1] then |coords| else |coords| + 1
    ensures forall k :: 0 <= k < |ring| ==> ring[k] in coords
  {
    if coords[0] != coords[|coords| - 1] then coords + [coords[0]] else coords
  }

  // ---------------------------------------------------------------------------
  // Bounding box and swath direction

  function MinOf(xs: seq<real>): (m: real)
    requires |xs| > 0
    ensures m in xs
    ensures forall k :: 0 <= k < |xs| ==> m <= xs[k]
  {
    if |xs| == 1 then xs[0] else Min(xs[0], MinOf(xs[1..]))
  }

  function MaxOf(xs: seq<real>): (m: real)
    requires |xs| > 0
    ensures m in xs
    ensures forall k :: 0 <= k < |xs| ==> xs[k] <= m
  {
    if |xs| == 1 then xs[0] else Max(xs[0], MaxOf(xs[1..]))
  }

  function Xs(ps: seq<Point>): (xs: seq<real>)
    ensures |xs| == |ps|
    ensures forall k :: 0 <= k < |ps| ==> xs[k] == ps[k].0
  {
    seq(|ps|, k requires 0 <= k < |ps| => ps[k].0)
  }

  function Ys(ps: seq<Point>): (ys: seq<real>)
    ensures |ys| == |ps|
    ensures forall k :: 0 <= k < |ps| ==> ys[k] == ps[k].1
  {
    seq(|ps|, k requires 0 <= k < |ps| => ps[k].1)
  }

  predicate InBox(b: Box, p: Point) {
    b.minX <= p.0 <= b.maxX && b.minY <= p.1 <= b.maxY
  }

  /** Per-axis minimum and maximum over the points: the smallest box holding them all. */
  function BoundingBox(ps: seq<Point>): (b: Box)
    requires |ps| > 0
    ensures forall k :: 0 <= k < |ps| ==> InBox(b, ps[k])
    ensures exists k :: 0 <= k < |ps| && ps[k].0 == b.minX
    ensures exists k :: 0 <= k < |ps| && ps[k].0 == b.maxX
    ensures exists k :: 0 <= k < |ps| && ps[k].1 == b.minY
    ensures exists k :: 0 <= k < |ps| && ps[k].1 == b.maxY
  {
    var xs := Xs(ps);
    var ys := Ys(ps);
    var b := Box(MinOf(xs), MaxOf(xs), MinOf(ys), MaxOf(ys));
    assert exists k :: 0 <= k < |ps| && xs[k] == b.minX;
    assert exists k :: 0 <= k < |ps| && xs[k] == b.maxX;
    assert exists k :: 0 <= k < |ps| && ys[k] == b.minY;
    assert exists k :: 0 <= k < |ps| && ys[k] == b.maxY;
    b
  }

  /** Horizontal swaths (lines of constant y) when the box is at least as wide as it is tall. */
  predicate UseHorizontal(b: Box) {
    b.maxX - b.minX >= b.maxY - b.minY
  }

  /**
    The coordinate a swath line fixes: y for horizontal swaths, x for vertical
    ones. Across is the other coordinate, the one that varies along a line.
   */
  function Along(p: Point, horizontal: bool): real {
    if horizontal then p.1 else p.0
  }

  function Across(p: Point, horizontal: bool): real {
    if horizontal then p.0 else p.1
  }

  /** The point on swath line `line` at cross coordinate c. */
  function OnLine(c: real, line: real, horizontal: bool): (p: Point)
    ensures Along(p, horizontal) == line && Across(p, horizontal) == c
  {
    if horizontal then (c, line) else (line, c)
  }

  // ---------------------------------------------------------------------------
  // Swath lines

  /** Lines y, y + w, y + 2w, ... up to and including limit. */
  function SwathFrom(y: real, limit: real): (lines: seq<real>)
    ensures |lines| > 0 <==> y <= limit
    ensures forall k :: 0 <= k < |lines| ==> lines[k] == y + k as real * SwathWidth
    ensures forall k :: 0 <= k < |lines| ==> lines[k] <= limit
    ensures |lines| > 0 ==> limit < lines[|lines| - 1] + SwathWidth
    decreases if y <= limit then (limit - y).Floor + 1 else 0
  {
    if y <= limit then
      var rest := SwathFrom(y + SwathWidth, limit);
      assert forall k :: 0 <= k < |rest| ==> rest[k] == y + (k + 1) as real * SwathWidth;
      [y] + rest
    else []
  }

  /**
    The swath lines across the interval [lo, hi] of the swath axis: half a
    width in from lo, then one width apart while they stay half a width
    inside hi, and finally a line exactly half a width inside hi unless the
    last one already sits there.
   */
  function SwathLines(lo: real, hi: real): (lines: seq<real>)
    ensures |lines| > 0
    ensures lines[|lines| - 1] == hi - SwathWidth / 2.0
    ensures forall i, j :: 0 <= i < j < |lines| ==> lines[i] < lines[j]
    ensures forall k :: 0 <= k < |lines| - 1 ==> lines[k] == lo + SwathWidth / 2.0 + k as real * SwathWidth
    ensures lo + SwathWidth / 2.0 <= hi - SwathWidth / 2.0 ==> lines[0] == lo + SwathWidth / 2.0
    ensures forall k :: 0 < k < |lines| ==> lines[k] - lines[k - 1] <= SwathWidth
  {
    var base := SwathFrom(lo + SwathWidth / 2.0, hi - SwathWidth / 2.0);
    if |base| == 0 || base[|base| - 1] < hi - SwathWidth / 2.0 then base + [hi - SwathWidth / 2.0]
    else base
  }

  // ---------------------------------------------------------------------------
  // Crossings of one swath line with the polygon's edges

  /** The half-open crossing test of edge (a1, a2) with line v: the lower end counts, the upper end does not. */
  predicate Crosses(a1: real, a2: real, v: real) {
    (a1 <= v && v < a2) || (a2 <= v && v < a1)
  }

  /** The half-open test is exactly "the edge ends lie on different sides of v". */
  lemma CrossesMeansSidesDiffer(a1: real, a2: real, v: real)
    ensures Crosses(a1, a2, v) <==> ((a1 <= v) != (a2 <= v))
  {
  }

  /** Where the edge p1-p2 meets swath line v, as a cross coordinate. */
  function Interpolate(p1: Point, p2: Point, v: real, horizontal: bool): (c: real)
    requires Crosses(Along(p1, horizontal), Along(p2, horizontal), v)
    ensures Min(Across(p1, horizontal), Across(p2, horizontal)) <= c <= Max(Across(p1, horizontal), Across(p2, horizontal))
  {
    var a1, a2 := Along(p1, horizontal), Along(p2, horizontal);
    var c1, c2 := Across(p1, horizontal), Across(p2, horizontal);
    var t := (v - a1) / (a2 - a1);
    UnitRatio(v - a1, a2 - a1);
    InterpolationBetween(c1, c2, t);
    c1 + t * (c2 - c1)
  }

  /** A quotient of two reals of the same sign, the numerator no larger in magnitude, lies in [0, 1]. */
  lemma UnitRatio(n: real, d: real)
    requires (0.0 <= n <= d && d > 0.0) || (d <= n <= 0.0 && d < 0.0)
    ensures 0.0 <= n / d <= 1.0
  {
    var t := n / d;
    assert t * d == n;
    if d > 0.0 {
      assert (t - 1.0) * d <= 0.0;
    } else {
      assert (t - 1.0) * d >= 0.0;
    }
  }

  lemma ProductNonNegative(a: real, b: real)
    requires a >= 0.0 && b >= 0.0
    ensures a * b >= 0.0
  {
  }

  lemma InterpolationBetween(c1: real, c2: real, t: real)
    requires 0.0 <= t <= 1.0
    ensures Min(c1, c2) <= c1 + t * (c2 - c1) <= Max(c1, c2)
  {
    if c1 <= c2 {
      ProductNonNegative(t, c2 - c1);
      ProductNonNegative(1.0 - t, c2 - c1);
    } else {
      ProductNonNegative(t, c1 - c2);
      ProductNonNegative(1.0 - t, c1 - c2);
    }
  }

  /**
    The cross coordinates where line v meets the edges ring[k]-ring[k+1], in
    edge order; each edge contributes at most one.
   */
  function Crossings(ring: seq<Point>, v: real, horizontal: bool): (cs: seq<real>)
    ensures |ring| > 0 ==> |cs| <= |ring| - 1
    ensures |ring| <= 1 ==> cs == []
  {
    if |ring| < 2 then []
    else
      var here := if Crosses(Along(ring[0], horizontal), Along(ring[1], horizontal), v)
        then [Interpolate(ring[0], ring[1], v, horizontal)] else [];
      here + Crossings(ring[1..], v, horizontal)
  }

  /** Edge e of the ring, from ring[e] to ring[e + 1], passes the half-open test for line v. */
  predicate EdgeCrosses(ring: seq<Point>, e: int, v: real, horizontal: bool)
    requires 0 <= e < |ring| - 1
  {
    Crosses(Along(ring[e], horizontal), Along(ring[e + 1], horizontal), v)
  }

  /** Where edge e meets line v. */
  function EdgeCrossing(ring: seq<Point>, e: int, v: real, horizontal: bool): real
    requires 0 <= e < |ring| - 1 && EdgeCrosses(ring, e, v, horizontal)
  {
    Interpolate(ring[e], ring[e + 1], v, horizontal)
  }

  /** The edges of the ring that line v crosses. */
  function CrossingEdges(ring: seq<Point>, v: real, horizontal: bool): set<int> {
    set e | 0 <= e < |ring| - 1 && EdgeCrosses(ring, e, v, horizontal)
  }

  /** x is where some crossing edge numbered m or later meets line v. */
  predicate FromEdgeAfter(ring: seq<Point>, m: nat, x: real, v: real, horizontal: bool) {
    exists e :: (m <= e < |ring| - 1 && EdgeCrosses(ring, e, v, horizontal) && x == EdgeCrossing(ring, e, v, horizontal))
  }

  /**
    The crossings are exactly the meeting points of the edges that pass the
    half-open test: each crossing comes from such an edge, and each such edge
    contributes its meeting point.
   */
  lemma CrossingsExact(ring: seq<Point>, v: real, horizontal: bool)
    ensures forall k :: 0 <= k < |Crossings(ring, v, horizontal)| ==>
      FromEdgeAfter(ring, 0, Crossings(ring, v, horizontal)[k], v, horizontal)
    ensures forall e :: 0 <= e < |ring| - 1 && EdgeCrosses(ring, e, v, horizontal) ==>
      EdgeCrossing(ring, e, v, horizontal) in Crossings(ring, v, horizontal)
  {
    CrossingsFromEdges(ring, v, horizontal, 0);
    EdgesGiveCrossings(ring, v, horizontal, 0);
    assert ring[0..] == ring;
  }

  /** The crossings from point m on: edge m's meeting point if it crosses, then those from point m + 1 on. */
  lemma CrossingsStep(ring: seq<Point>, v: real, horizontal: bool, m: nat)
    requires m + 1 < |ring|
    ensures Crossings(ring[m..], v, horizontal) ==
      (if EdgeCrosses(ring, m, v, horizontal) then [EdgeCrossing(ring, m, v, horizontal)] else [])
      + Crossings(ring[m + 1..], v, horizontal)
  {
    var tail := ring[m..];
    assert tail[1..] == ring[m + 1..];
    assert tail[0] == ring[m] && tail[1] == ring[m + 1];
  }

  /** Every crossing from point m on is the meeting point of a crossing edge numbered m or later. */
  lemma {:induction false} CrossingsFromEdges(ring: seq<Point>, v: real, horizontal: bool, m: nat)
    requires m <= |ring|
    ensures var cs := Crossings(ring[m..], v, horizontal);
      forall k :: 0 <= k < |cs| ==> FromEdgeAfter(ring, m, cs[k], v, horizontal)
    decreases |ring| - m
  {
    var cs := Crossings(ring[m..], v, horizontal);
    if m + 1 < |ring| {
      CrossingsStep(ring, v, horizontal, m);
      CrossingsFromEdges(ring, v, horizontal, m + 1);
      var rest := Crossings(ring[m + 1..], v, horizontal);
      var n := if EdgeCrosses(ring, m, v, horizontal) then 1 else 0;
      forall k | 0 <= k < |cs|
        ensures FromEdgeAfter(ring, m, cs[k], v, horizontal)
      {
        if k < n {
          assert cs[k] == EdgeCrossing(ring, m, v, horizontal);
        } else {
          assert cs[k] == rest[k - n];
          assert FromEdgeAfter(ring, m + 1, cs[k], v, horizontal);
          var e :| m + 1 <= e < |ring| - 1 && EdgeCrosses(ring, e, v, horizontal) && cs[k] == EdgeCrossing(ring, e, v, horizontal);
        }
      }
    } else {
      assert |cs| == 0;
    }
  }

  /** The meeting point of every crossing edge numbered m or later is among the crossings from point m on. */
  lemma {:induction false} EdgesGiveCrossings(ring: seq<Point>, v: real, horizontal: bool, m: nat)
    requires m <= |ring|
    ensures forall e :: m <= e < |ring| - 1 && EdgeCrosses(ring, e, v, horizontal) ==>
      EdgeCrossing(ring, e, v, horizontal) in Crossings(ring[m..], v, horizontal)
    decreases |ring| - m
  {
    if m + 1 < |ring| {
      CrossingsStep(ring, v, horizontal, m);
      EdgesGiveCrossings(ring, v, horizontal, m + 1);
    }
  }

  /** One crossing per crossing edge: the count is the number of edges passing the test. */
  lemma CrossingCount(ring: seq<Point>, v: real, horizontal: bool)
    ensures |Crossings(ring, v, horizontal)| == |CrossingEdges(ring, v, horizontal)|
  {
    CrossingCountFrom(ring, v, horizontal, 0);
    assert ring[0..] == ring;
  }

  /** The crossing edges numbered m or later. */
  function CrossingEdgesFrom(ring: seq<Point>, m: nat, v: real, horizontal: bool): set<int> {
    set e | m <= e < |ring| - 1 && EdgeCrosses(ring, e, v, horizontal)
  }

  /** The crossings of the ring from point m on are one per crossing edge numbered m or later. */
  lemma {:induction false} CrossingCountFrom(ring: seq<Point>, v: real, horizontal: bool, m: nat)
    requires m <= |ring|
    ensures |Crossings(ring[m..], v, horizontal)| == |CrossingEdgesFrom(ring, m, v, horizontal)|
    decreases |ring| - m
  {
    if m + 1 >= |ring| {
      assert CrossingEdgesFrom(ring, m, v, horizontal) == {};
    } else {
      CrossingCountFrom(ring, v, horizontal, m + 1);
      EdgesFromStep(ring, v, horizontal, m);
      var tail := ring[m..];
      assert tail[1..] == ring[m + 1..];
      assert tail[0] == ring[m] && tail[1] == ring[m + 1];
    }
  }

  /** The crossing edges from m on: edge m if it crosses, then those from m + 1 on. */
  lemma EdgesFromStep(ring: seq<Point>, v: real, horizontal: bool, m: nat)
    requires m + 1 < |ring|
    ensures var edges, later := CrossingEdgesFrom(ring, m, v, horizontal), CrossingEdgesFrom(ring, m + 1, v, horizontal);
      |edges| == |later| + (if EdgeCrosses(ring, m, v, horizontal) then 1 else 0)
  {
    var edges, later := CrossingEdgesFrom(ring, m, v, horizontal), CrossingEdgesFrom(ring, m + 1, v, horizontal);
    if EdgeCrosses(ring, m, v, horizontal) {
      assert edges == later + {m};
    } else {
      assert edges == later;
    }
  }

  /**
    Each value occurs among the crossings exactly as often as there are
    crossing edges meeting the line there: every crossing edge contributes
    one crossing and no other crossing exists.
   */
  lemma CrossingMultiplicity(ring: seq<Point>, v: real, horizontal: bool)
    ensures forall x :: (multiset(Crossings(ring, v, horizontal))[x] ==
      |set e | 0 <= e < |ring| - 1 && EdgeCrosses(ring, e, v, horizontal) && EdgeCrossing(ring, e, v, horizontal) == x|)
  {
    forall x
      ensures multiset(Crossings(ring, v, horizontal))[x] ==
        |set e | 0 <= e < |ring| - 1 && EdgeCrosses(ring, e, v, horizontal) && EdgeCrossing(ring, e, v, horizontal) == x|
    {
      MultiplicityFrom(ring, v, horizontal, 0, x);
      assert ring[0..] == ring;
      assert CrossingEdgesAt(ring, 0, x, v, horizontal) ==
        set e | 0 <= e < |ring| - 1 && EdgeCrosses(ring, e, v, horizontal) && EdgeCrossing(ring, e, v, horizontal) == x;
    }
  }

  /** Whether edge e of the ring passes the half-open test for line v and meets it at x. */
  function MeetsAt(ring: seq<Point>, x: real, v: real, horizontal: bool): int -> bool {
    e => 0 <= e < |ring| - 1 && EdgeCrosses(ring, e, v, horizontal) && EdgeCrossing(ring, e, v, horizontal) == x
  }

  /** The crossing edges numbered m or later that meet line v at x. */
  function CrossingEdgesAt(ring: seq<Point>, m: nat, x: real, v: real, horizontal: bool): set<int> {
    set e | m <= e < |ring| - 1 && MeetsAt(ring, x, v, horizontal)(e)
  }

  /** From point m on, x occurs among the crossings once per crossing edge numbered m or later that meets the line at x. */
  lemma {:induction false} MultiplicityFrom(ring: seq<Point>, v: real, horizontal: bool, m: nat, x: real)
    requires m <= |ring|
    ensures multiset(Crossings(ring[m..], v, horizontal))[x] == |CrossingEdgesAt(ring, m, x, v, horizontal)|
    decreases |ring| - m
  {
    if m + 1 < |ring| {
      CrossingsStep(ring, v, horizontal, m);
      MultiplicityFrom(ring, v, horizontal, m + 1, x);
      EdgesAtStep(ring, m, x, v, horizontal);
    } else {
      assert CrossingEdgesAt(ring, m, x, v, horizontal) == {};
      assert Crossings(ring[m..], v, horizontal) == [];
    }
  }

  /** The crossing edges at x from m on: edge m if it meets the line at x, then those from m + 1 on. */
  lemma EdgesAtStep(ring: seq<Point>, m: nat, x: real, v: real, horizontal: bool)
    requires m + 1 < |ring|
    ensures |CrossingEdgesAt(ring, m, x, v, horizontal)| == |CrossingEdgesAt(ring, m + 1, x, v, horizontal)| +
      (if EdgeCrosses(ring, m, v, horizontal) && EdgeCrossing(ring, m, v, horizontal) == x then 1 else 0)
  {
    CountStep(MeetsAt(ring, x, v, horizontal), m, |ring| - 1);
  }

  /** Counting the indices in [m, n) that satisfy p: index m if it does, then those in [m + 1, n). */
  lemma CountStep(p: int -> bool, m: int, n: int)
    requires m < n
    ensures |set e | m <= e < n && p(e)| == |set e | m + 1 <= e < n && p(e)| + (if p(m) then 1 else 0)
  {
    var all, later := set e | m <= e < n && p(e), set e | m + 1 <= e < n && p(e);
    if p(m) {
      assert all == later + {m};
    } else {
      assert all == later;
    }
  }

  /** Every crossing lies within the cross-axis extent of the ring. */
  lemma {:induction false} CrossingsInRange(ring: seq<Point>, v: real, horizontal: bool, lo: real, hi: real)
    requires forall k :: 0 <= k < |ring| ==> lo <= Across(ring[k], horizontal) <= hi
    ensures forall k :: 0 <= k < |Crossings(ring, v, horizontal)| ==> lo <= Crossings(ring, v, horizontal)[k] <= hi
  {
    if |ring| >= 2 {
      CrossingsInRange(ring[1..], v, horizontal, lo, hi);
    }
  }

  /** A line that meets the ring at all lies within the ring's extent along the swath axis. */
  lemma {:induction false} CrossingLineInRange(ring: seq<Point>, v: real, horizontal: bool, lo: real, hi: real)
    requires forall k :: 0 <= k < |ring| ==> lo <= Along(ring[k], horizontal) <= hi
    requires |Crossings(ring, v, horizontal)| > 0
    ensures lo <= v <= hi
  {
    if !Crosses(Along(ring[0], horizontal), Along(ring[1], horizontal), v) {
      CrossingLineInRange(ring[1..], v, horizontal, lo, hi);
    }
  }

  /** Parity of the crossing count: odd exactly when the first and last points lie on different sides of v. */
  lemma {:induction false} CrossingParity(ring: seq<Point>, v: real, horizontal: bool)
    requires |ring| > 0
    ensures |Crossings(ring, v, horizontal)| % 2 ==
      if (Along(ring[0], horizontal) <= v) == (Along(ring[|ring| - 1], horizontal) <= v) then 0 else 1
  {
    if |ring| >= 2 {
      CrossingParity(ring[1..], v, horizontal);
      CrossesMeansSidesDiffer(Along(ring[0], horizontal), Along(ring[1], horizontal), v);
    }
  }

  /** A closed ring meets every swath line an even number of times. */
  lemma ClosedRingCrossingsEven(ring: seq<Point>, v: real, horizontal: bool)
    requires |ring| > 0 && ring[0] == ring[|ring| - 1]
    ensures |Crossings(ring, v, horizontal)| % 2 == 0
  {
    CrossingParity(ring, v, horizontal);
  }

  // ---------------------------------------------------------------------------
  // Segments

  /**
    Consecutive pairs of the crossings become segments of line v; a trailing
    unpaired crossing is dropped.
   */
  function PairUp(cs: seq<real>, v: real, horizontal: bool): (segs: seq<Segment>)
    ensures |segs| == |cs| / 2
    ensures forall k :: 0 <= k < |segs| ==>
      segs[k].start == OnLine(cs[2 * k], v, horizontal) && segs[k].end == OnLine(cs[2 * k + 1], v, horizontal)
  {
    if |cs| < 2 then []
    else
      var rest := PairUp(cs[2..], v, horizontal);
      var segs := [Segment(OnLine(cs[0], v, horizontal), OnLine(cs[1], v, horizontal))] + rest;
      assert forall k :: 0 <= k < |segs| ==>
        segs[k].start == OnLine(cs[2 * k], v, horizontal) && segs[k].end == OnLine(cs[2 * k + 1], v, horizontal) by {
        forall k | 0 < k < |segs|
          ensures segs[k].start == OnLine(cs[2 * k], v, horizontal) && segs[k].end == OnLine(cs[2 * k + 1], v, horizontal)
        {
          var j := k - 1;
          assert segs[k] == rest[j];
          assert cs[2..][2 * j] == cs[2 * k] && cs[2..][2 * j + 1] == cs[2 * k + 1];
        }
      }
      segs
  }

  function Identity(c: real): real { c }

  /** The segments swath line v cuts out of the ring. */
  function LineSegments(ring: seq<Point>, v: real, horizontal: bool): (segs: seq<Segment>)
    ensures |segs| == |Crossings(ring, v, horizontal)| / 2
    ensures forall k :: 0 <= k < |segs| ==> OnSwath(segs[k], v, horizontal)
    ensures forall k :: 0 <= k < |segs| ==>
      Across(segs[k].start, horizontal) in Crossings(ring, v, horizontal) &&
      Across(segs[k].end, horizontal) in Crossings(ring, v, horizontal)
    ensures forall k :: 0 < k < |segs| ==> Across(segs[k - 1].end, horizontal) <= Across(segs[k].start, horizontal)
  {
    var sorted := SortBy(Crossings(ring, v, horizontal), Identity);
    var segs := PairUp(sorted, v, horizontal);
    PairsInOrder(sorted);
    PairsOfCrossings(Crossings(ring, v, horizontal), sorted, segs, v, horizontal);
    segs
  }

  /**
    Pairing sorted crossings gives segments whose ends are crossings and
    which follow one another along the line without overlapping.
   */
  lemma PairsOfCrossings(cs: seq<real>, sorted: seq<real>, segs: seq<Segment>, v: real, horizontal: bool)
    requires SortedBy(sorted, Identity) && multiset(sorted) == multiset(cs)
    requires segs == PairUp(sorted, v, horizontal)
    ensures forall k :: 0 <= k < |segs| ==>
      Across(segs[k].start, horizontal) in cs && Across(segs[k].end, horizontal) in cs
    ensures forall k :: 0 < k < |segs| ==> Across(segs[k - 1].end, horizontal) <= Across(segs[k].start, horizontal)
  {
    forall k | 0 <= k < |segs|
      ensures Across(segs[k].start, horizontal) in cs && Across(segs[k].end, horizontal) in cs
    {
      assert sorted[2 * k] in multiset(sorted) && sorted[2 * k + 1] in multiset(sorted);
    }
    forall k | 0 < k < |segs|
      ensures Across(segs[k - 1].end, horizontal) <= Across(segs[k].start, horizontal)
    {
      assert Identity(sorted[2 * k - 1]) <= Identity(sorted[2 * k]);
    }
  }

  /** In sorted crossings, the two crossings of each pair come in increasing order. */
  lemma PairsInOrder(sorted: seq<real>)
    requires SortedBy(sorted, Identity)
    ensures forall k :: 0 <= k < |sorted| / 2 ==> sorted[2 * k] <= sorted[2 * k + 1]
  {
    forall k | 0 <= k < |sorted| / 2
      ensures sorted[2 * k] <= sorted[2 * k + 1]
    {
      assert Identity(sorted[2 * k]) <= Identity(sorted[2 * k + 1]);
    }
  }

  /** Both ends of s lie on swath line v, and s runs in the increasing cross direction. */
  predicate OnSwath(s: Segment, v: real, horizontal: bool) {
    && Along(s.start, horizontal) == v
    && Along(s.end, horizontal) == v
    && Across(s.start, horizontal) <= Across(s.end, horizontal)
  }

  /** How many segments the lines cut out of the ring, line by line. */
  function SegmentTotal(ring: seq<Point>, lines: seq<real>, horizontal: bool): nat {
    if |lines| == 0 then 0
    else |LineSegments(ring, lines[0], horizontal)| + SegmentTotal(ring, lines[1..], horizontal)
  }

  /** The segments of every swath line, line by line in the given order. */
  function AllSegments(ring: seq<Point>, lines: seq<real>, horizontal: bool): (segs: seq<Segment>)
    ensures forall k :: 0 <= k < |segs| ==> Along(segs[k].start, horizontal) in lines
    ensures forall k :: 0 <= k < |segs| ==> OnSwath(segs[k], Along(segs[k].start, horizontal), horizontal)
    ensures forall j :: 0 <= j < |lines| ==> multiset(LineSegments(ring, lines[j], horizontal)) <= multiset(segs)
    ensures |segs| == SegmentTotal(ring, lines, horizontal)
  {
    if |lines| == 0 then []
    else
      var here := LineSegments(ring, lines[0], horizontal);
      var rest := AllSegments(ring, lines[1..], horizontal);
      var segs := here + rest;
      SegmentsOfLines(here, rest, lines, horizontal);
      EveryLineCollected(v => LineSegments(ring, v, horizontal), lines, here, rest);
      segs
  }

  /**
    Joining the segments of the first line to those of the remaining lines
    keeps every segment on one of the lines.
   */
  lemma SegmentsOfLines(here: seq<Segment>, rest: seq<Segment>, lines: seq<real>, horizontal: bool)
    requires |lines| > 0
    requires forall k :: 0 <= k < |here| ==> OnSwath(here[k], lines[0], horizontal)
    requires forall k :: 0 <= k < |rest| ==> Along(rest[k].start, horizontal) in lines[1..]
    requires forall k :: 0 <= k < |rest| ==> OnSwath(rest[k], Along(rest[k].start, horizontal), horizontal)
    ensures forall k :: 0 <= k < |here + rest| ==> Along((here + rest)[k].start, horizontal) in lines
    ensures forall k :: 0 <= k < |here + rest| ==>
      OnSwath((here + rest)[k], Along((here + rest)[k].start, horizontal), horizontal)
  {
    var segs := here + rest;
    forall k | 0 <= k < |segs|
      ensures Along(segs[k].start, horizontal) in lines
      ensures OnSwath(segs[k], Along(segs[k].start, horizontal), horizontal)
    {
      if k < |here| {
        assert segs[k] == here[k];
      } else {
        assert segs[k] == rest[k - |here|];
        assert Along(segs[k].start, horizontal) in lines[1..];
      }
    }
  }

  /**
    The segments of the first line, followed by segments that include those of
    every remaining line, include those of every line.
   */
  lemma EveryLineCollected(cut: real -> seq<Segment>, lines: seq<real>, here: seq<Segment>, rest: seq<Segment>)
    requires |lines| > 0 && here == cut(lines[0])
    requires forall j :: 0 <= j < |lines[1..]| ==> multiset(cut(lines[1..][j])) <= multiset(rest)
    ensures forall j :: 0 <= j < |lines| ==> multiset(cut(lines[j])) <= multiset(here + rest)
  {
    forall j | 0 <= j < |lines|
      ensures multiset(cut(lines[j])) <= multiset(here + rest)
    {
      if j > 0 {
        assert lines[j] == lines[1..][j - 1];
      }
    }
  }

  /**
    Nothing but the lines' own segments is collected: each segment is one of
    those its line cuts out. With the count in AllSegments's contract and
    distinct lines, the collection is exactly the lines' segments.
   */
  lemma {:induction false} OnlyLineSegmentsCollected(ring: seq<Point>, lines: seq<real>, horizontal: bool)
    ensures FromOwnLines(AllSegments(ring, lines, horizontal), Cut(ring, horizontal), horizontal)
    decreases |lines|
  {
    if |lines| > 0 {
      var rest := AllSegments(ring, lines[1..], horizontal);
      OnlyLineSegmentsCollected(ring, lines[1..], horizontal);
      var here := LineSegments(ring, lines[0], horizontal);
      assert AllSegments(ring, lines, horizontal) == here + rest;
      FromTheirLines(Cut(ring, horizontal), lines[0], here, rest, horizontal);
    }
  }

  /** The segments each swath line cuts out of the ring, as a function of the line. */
  function Cut(ring: seq<Point>, horizontal: bool): real -> seq<Segment> {
    v => LineSegments(ring, v, horizontal)
  }

  /** Each segment is one of those that cut gives for the line it lies on. */
  predicate FromOwnLines(segs: seq<Segment>, cut: real -> seq<Segment>, horizontal: bool) {
    forall k :: 0 <= k < |segs| ==> segs[k] in cut(Along(segs[k].start, horizontal))
  }

  /** Joining the first line's segments to segments that each come from their own line keeps that property. */
  lemma FromTheirLines(cut: real -> seq<Segment>, line: real, here: seq<Segment>, rest: seq<Segment>, horizontal: bool)
    requires here == cut(line)
    requires forall k :: 0 <= k < |here| ==> Along(here[k].start, horizontal) == line
    requires FromOwnLines(rest, cut, horizontal)
    ensures FromOwnLines(here + rest, cut, horizontal)
  {
    forall k | 0 <= k < |here + rest|
      ensures (here + rest)[k] in cut(Along((here + rest)[k].start, horizontal))
    {
      if k < |here| {
        assert (here + rest)[k] == here[k];
      } else {
        assert (here + rest)[k] == rest[k - |here|];
      }
    }
  }

  /**
    The segments of line j form one block of the collection, in the order the
    line cuts them, right after the segments of the lines before it.
   */
  lemma LineBlock(ring: seq<Point>, lines: seq<real>, horizontal: bool, j: nat)
    requires j < |lines|
    ensures SegmentTotal(ring, lines[..j], horizontal) <= SegmentTotal(ring, lines[..j + 1], horizontal)
      <= |AllSegments(ring, lines, horizontal)|
    ensures AllSegments(ring, lines, horizontal)[SegmentTotal(ring, lines[..j], horizontal)..SegmentTotal(ring, lines[..j + 1], horizontal)]
      == LineSegments(ring, lines[j], horizontal)
  {
    var cut := Cut(ring, horizontal);
    CollectedByCut(ring, lines, horizontal);
    CollectedByCut(ring, lines[..j], horizontal);
    CollectedByCut(ring, lines[..j + 1], horizontal);
    BlockOf(cut, lines, j);
  }

  /** The segments cut lines produce, line by line, for any cut. */
  function Concat(cut: real -> seq<Segment>, lines: seq<real>): seq<Segment> {
    if |lines| == 0 then [] else cut(lines[0]) + Concat(cut, lines[1..])
  }

  /** How many segments cut produces over the lines. */
  function TotalOf(cut: real -> seq<Segment>, lines: seq<real>): nat {
    if |lines| == 0 then 0 else |cut(lines[0])| + TotalOf(cut, lines[1..])
  }

  /** AllSegments and SegmentTotal are Concat and TotalOf for the ring's own cut. */
  lemma {:induction false} CollectedByCut(ring: seq<Point>, lines: seq<real>, horizontal: bool)
    ensures AllSegments(ring, lines, horizontal) == Concat(Cut(ring, horizontal), lines)
    ensures SegmentTotal(ring, lines, horizontal) == TotalOf(Cut(ring, horizontal), lines)
    decreases |lines|
  {
    if |lines| > 0 {
      CollectedByCut(ring, lines[1..], horizontal);
      assert Cut(ring, horizontal)(lines[0]) == LineSegments(ring, lines[0], horizontal);
    }
  }

  /** Whatever the cut, line j's segments sit between the totals of the first j and j + 1 lines. */
  lemma {:induction false} BlockOf(cut: real -> seq<Segment>, lines: seq<real>, j: nat)
    requires j < |lines|
    ensures TotalOf(cut, lines[..j]) <= TotalOf(cut, lines[..j + 1]) <= |Concat(cut, lines)|
    ensures Concat(cut, lines)[TotalOf(cut, lines[..j])..TotalOf(cut, lines[..j + 1])] == cut(lines[j])
    decreases j
  {
    var here := cut(lines[0]);
    var rest := Concat(cut, lines[1..]);
    TotalIsLength(cut, lines[1..]);
    if j == 0 {
      assert lines[..0] == [] && lines[..1] == [lines[0]] && lines[..1][1..] == [];
    } else {
      BlockOf(cut, lines[1..], j - 1);
      assert lines[..j][1..] == lines[1..][..j - 1] && lines[..j][0] == lines[0];
      assert lines[..j + 1][1..] == lines[1..][..j] && lines[..j + 1][0] == lines[0];
      assert lines[1..][j - 1] == lines[j];
      var a, b := TotalOf(cut, lines[1..][..j - 1]), TotalOf(cut, lines[1..][..j]);
      ShiftedSlice(here, rest, a, b);
    }
  }

  /** TotalOf counts the segments Concat collects. */
  lemma {:induction false} TotalIsLength(cut: real -> seq<Segment>, lines: seq<real>)
    ensures TotalOf(cut, lines) == |Concat(cut, lines)|
    decreases |lines|
  {
    if |lines| > 0 {
      TotalIsLength(cut, lines[1..]);
    }
  }

  /** A slice of the second part of a concatenation, shifted by the first part's length. */
  lemma ShiftedSlice<T>(here: seq<T>, rest: seq<T>, a: nat, b: nat)
    requires a <= b <= |rest|
    ensures (here + rest)[|here| + a..|here| + b] == rest[a..b]
  {
  }

  /** The order segments are visited in: by the swath line they lie on. */
  function LineKey(horizontal: bool): Segment -> real {
    (s: Segment) => Along(s.start, horizontal)
  }

  // ---------------------------------------------------------------------------
  // Path assembly

  /** Segment i is entered at its start when i is even and at its end when i is odd. */
  function Entry(s: Segment, i: nat): Point {
    if i % 2 == 1 then s.end else s.start
  }

  /** The end of segment i the path leaves it by: the other end from Entry. */
  function Exit(s: Segment, i: nat): Point {
    if i % 2 == 1 then s.start else s.end
  }

  /** The boustrophedon path through the segments in order. */
  function Boustrophedon(segs: seq<Segment>): (path: seq<Point>)
    ensures |path| == 2 * |segs|
    ensures forall i :: 0 <= i < |segs| ==> path[2 * i] == Entry(segs[i], i) && path[2 * i + 1] == Exit(segs[i], i)
  {
    if |segs| == 0 then []
    else
      var n := |segs| - 1;
      var prefix := Boustrophedon(segs[..n]);
      prefix + [Entry(segs[n], n), Exit(segs[n], n)]
  }

  // ---------------------------------------------------------------------------
  // The planner

  /** The closed ring, its bounding box, the swath direction and the swath lines. */
  datatype Layout = Layout(ring: seq<Point>, box: Box, horizontal: bool, lines: seq<real>)

  function MakeLayout(polygon: seq<Point>): (l: Layout)
    requires |polygon| >= 3
  {
    var ring := CloseRing(polygon);
    var box := BoundingBox(ring);
    var horizontal := UseHorizontal(box);
    var lines := if horizontal then SwathLines(box.minY, box.maxY) else SwathLines(box.minX, box.maxX);
    Layout(ring, box, horizontal, lines)
  }

  /**
    How the plan is laid out: the closed ring, its bounding box, the
    direction rule, and the swath lines across the box's extent along the
    swath axis.
   */
  lemma LayoutShape(polygon: seq<Point>)
    requires |polygon| >= 3
    ensures var l := MakeLayout(polygon);
      && l.ring == CloseRing(polygon) && l.box == BoundingBox(l.ring)
      && (l.horizontal <==> l.box.maxX - l.box.minX >= l.box.maxY - l.box.minY)
      && l.lines == (if l.horizontal then SwathLines(l.box.minY, l.box.maxY) else SwathLines(l.box.minX, l.box.maxX))
  {
  }

  /** The segments the swath lines cut out of the closed ring, sorted by line. */
  function PlanSegments(polygon: seq<Point>): (segs: seq<Segment>)
    requires |polygon| >= 3
  {
    var l := MakeLayout(polygon);
    SortBy(AllSegments(l.ring, l.lines, l.horizontal), LineKey(l.horizontal))
  }

  /** The plan's segments are a permutation of those the swath lines cut out, sorted by line. */
  lemma PlanSegmentsSorted(polygon: seq<Point>)
    requires |polygon| >= 3
    ensures var l, segs := MakeLayout(polygon), PlanSegments(polygon);
      && SortedBy(segs, LineKey(l.horizontal))
      && multiset(segs) == multiset(AllSegments(l.ring, l.lines, l.horizontal))
  {
  }

  /** The coverage path over a polygon given as its corner points in order. */
  function ComputeShortestPath(polygon: seq<Point>): (r: Result<seq<Point>, PlanError>)
    ensures r.Failure? <==> |polygon| < 3
    ensures r.Failure? ==> r.error == TooFewPoints
  {
    if |polygon| < 3 then Failure(TooFewPoints)
    else
      Success(Boustrophedon(PlanSegments(polygon)))
  }

  // ---------------------------------------------------------------------------
  // Properties of the planner

  /** The path visits every segment once, two points per segment, alternating direction. */
  lemma PathAlternates(polygon: seq<Point>)
    requires |polygon| >= 3
    ensures var path, segs := ComputeShortestPath(polygon).value, PlanSegments(polygon);
      && |path| == 2 * |segs|
      && forall i :: 0 <= i < |segs| ==> path[2 * i] == Entry(segs[i], i) && path[2 * i + 1] == Exit(segs[i], i)
  {
    var segs := PlanSegments(polygon);
    assert ComputeShortestPath(polygon).value == Boustrophedon(segs);
  }

  /** Segments collected line by line over increasing lines are already in line order. */
  lemma AllSegmentsInLineOrder(ring: seq<Point>, lines: seq<real>, horizontal: bool)
    requires forall i, j :: 0 <= i < j < |lines| ==> lines[i] < lines[j]
    ensures SortedBy(AllSegments(ring, lines, horizontal), LineKey(horizontal))
  {
    var cut := Cut(ring, horizontal);
    forall v, k | 0 <= k < |cut(v)|
      ensures Along(cut(v)[k].start, horizontal) == v
    {
      assert cut(v) == LineSegments(ring, v, horizontal);
    }
    CollectedByCut(ring, lines, horizontal);
    ConcatInLineOrder(cut, lines, horizontal);
  }

  /**
    For any cut that keeps each line's segments on that line, collecting over
    increasing lines gives segments sorted by line, each on one of the lines.
   */
  lemma {:induction false} ConcatInLineOrder(cut: real -> seq<Segment>, lines: seq<real>, horizontal: bool)
    requires forall i, j :: 0 <= i < j < |lines| ==> lines[i] < lines[j]
    requires forall v, k :: 0 <= k < |cut(v)| ==> Along(cut(v)[k].start, horizontal) == v
    ensures SortedBy(Concat(cut, lines), LineKey(horizontal))
    ensures forall k :: 0 <= k < |Concat(cut, lines)| ==> Along(Concat(cut, lines)[k].start, horizontal) in lines
    decreases |lines|
  {
    if |lines| > 0 {
      var here, rest := cut(lines[0]), Concat(cut, lines[1..]);
      assert forall i, j :: 0 <= i < j < |lines[1..]| ==> lines[1..][i] < lines[1..][j] by {
        forall i, j | 0 <= i < j < |lines[1..]|
          ensures lines[1..][i] < lines[1..][j]
        {
          assert lines[1..][i] == lines[i + 1] && lines[1..][j] == lines[j + 1];
        }
      }
      ConcatInLineOrder(cut, lines[1..], horizontal);
      JoinInLineOrder(here, rest, lines, horizontal);
      forall k | 0 <= k < |here + rest|
        ensures Along((here + rest)[k].start, horizontal) in lines
      {
        if k < |here| {
          assert (here + rest)[k] == here[k];
        } else {
          assert (here + rest)[k] == rest[k - |here|];
        }
      }
    }
  }

  /**
    Segments on the first line, followed by segments sorted by line that lie
    on later, larger lines, are sorted by line.
   */
  lemma JoinInLineOrder(here: seq<Segment>, rest: seq<Segment>, lines: seq<real>, horizontal: bool)
    requires |lines| > 0 && forall i, j :: 0 <= i < j < |lines| ==> lines[i] < lines[j]
    requires forall k :: 0 <= k < |here| ==> Along(here[k].start, horizontal) == lines[0]
    requires forall k :: 0 <= k < |rest| ==> Along(rest[k].start, horizontal) in lines[1..]
    requires SortedBy(rest, LineKey(horizontal))
    ensures SortedBy(here + rest, LineKey(horizontal))
  {
    var all := here + rest;
    var key := LineKey(horizontal);
    forall i, j | 0 <= i < j < |all|
      ensures key(all[i]) <= key(all[j])
    {
      if j < |here| {
        assert all[i] == here[i] && all[j] == here[j];
      } else if i < |here| {
        assert all[i] == here[i] && all[j] == rest[j - |here|];
        assert key(all[j]) in lines[1..];
      } else {
        assert all[i] == rest[i - |here|] && all[j] == rest[j - |here|];
      }
    }
  }

  /**
    The segment sort never reorders anything: the swath lines strictly
    increase, so the segments already arrive sorted by line.
   */
  lemma SegmentSortKeepsOrder(polygon: seq<Point>)
    requires |polygon| >= 3
    ensures var l := MakeLayout(polygon);
      PlanSegments(polygon) == AllSegments(l.ring, l.lines, l.horizontal)
  {
    var l := MakeLayout(polygon);
    AllSegmentsInLineOrder(l.ring, l.lines, l.horizontal);
  }

  /**
    On a closed ring, such as the one the planner builds with CloseRing, every
    crossing of every swath line is used: the crossing count is even, so the
    pairing drops no trailing crossing.
   */
  lemma NoCrossingDropped(ring: seq<Point>, v: real, horizontal: bool)
    requires |ring| > 0 && ring[0] == ring[|ring| - 1]
    ensures 2 * |LineSegments(ring, v, horizontal)| == |Crossings(ring, v, horizontal)|
  {
    ClosedRingCrossingsEven(ring, v, horizontal);
  }

  /** The segments one swath line cuts from a ring lie inside any box holding the ring. */
  lemma LineSegmentsInBox(ring: seq<Point>, v: real, horizontal: bool, b: Box)
    requires forall k :: 0 <= k < |ring| ==> InBox(b, ring[k])
    ensures forall k :: 0 <= k < |LineSegments(ring, v, horizontal)| ==>
      InBox(b, LineSegments(ring, v, horizontal)[k].start) && InBox(b, LineSegments(ring, v, horizontal)[k].end)
  {
    var cs := Crossings(ring, v, horizontal);
    var sorted := SortBy(cs, Identity);
    var segs := LineSegments(ring, v, horizontal);
    assert segs == PairUp(sorted, v, horizontal);
    var lo, hi := if horizontal then b.minX else b.minY, if horizontal then b.maxX else b.maxY;
    var alo, ahi := if horizontal then b.minY else b.minX, if horizontal then b.maxY else b.maxX;
    CrossingsInRange(ring, v, horizontal, lo, hi);
    if |segs| > 0 {
      CrossingLineInRange(ring, v, horizontal, alo, ahi);
    }
    forall k | 0 <= k < |segs|
      ensures InBox(b, segs[k].start) && InBox(b, segs[k].end)
    {
      assert sorted[2 * k] in multiset(cs) && sorted[2 * k + 1] in multiset(cs);
    }
  }

  /** Every segment of every line lies inside any box holding the ring. */
  lemma {:induction false} AllSegmentsInBox(ring: seq<Point>, lines: seq<real>, horizontal: bool, b: Box)
    requires forall k :: 0 <= k < |ring| ==> InBox(b, ring[k])
    ensures forall k :: 0 <= k < |AllSegments(ring, lines, horizontal)| ==>
      InBox(b, AllSegments(ring, lines, horizontal)[k].start) && InBox(b, AllSegments(ring, lines, horizontal)[k].end)
  {
    if |lines| > 0 {
      var here := LineSegments(ring, lines[0], horizontal);
      var rest := AllSegments(ring, lines[1..], horizontal);
      LineSegmentsInBox(ring, lines[0], horizontal, b);
      AllSegmentsInBox(ring, lines[1..], horizontal, b);
      var all := AllSegments(ring, lines, horizontal);
      assert all == here + rest;
      forall k | 0 <= k < |all|
        ensures InBox(b, all[k].start) && InBox(b, all[k].end)
      {
        if k < |here| { assert all[k] == here[k]; } else { assert all[k] == rest[k - |here|]; }
      }
    }
  }

  /** A path through segments that lie in a box stays in that box. */
  lemma BoustrophedonInBox(segs: seq<Segment>, b: Box)
    requires forall k :: 0 <= k < |segs| ==> InBox(b, segs[k].start) && InBox(b, segs[k].end)
    ensures forall m :: 0 <= m < |Boustrophedon(segs)| ==> InBox(b, Boustrophedon(segs)[m])
  {
    var path := Boustrophedon(segs);
    forall m | 0 <= m < |path|
      ensures InBox(b, path[m])
    {
      var i := m / 2;
      assert InBox(b, segs[i].start) && InBox(b, segs[i].end);
      if m == 2 * i {
        assert path[m] == Entry(segs[i], i);
      } else {
        assert path[m] == Exit(segs[i], i);
      }
    }
  }

  /** Reordering segments keeps them in whatever box held them. */
  lemma PermutedSegmentsInBox(segs: seq<Segment>, perm: seq<Segment>, b: Box)
    requires multiset(perm) == multiset(segs)
    requires forall k :: 0 <= k < |segs| ==> InBox(b, segs[k].start) && InBox(b, segs[k].end)
    ensures forall k :: 0 <= k < |perm| ==> InBox(b, perm[k].start) && InBox(b, perm[k].end)
  {
    forall k | 0 <= k < |perm|
      ensures InBox(b, perm[k].start) && InBox(b, perm[k].end)
    {
      assert perm[k] in multiset(segs);
    }
  }

  /** Closing the ring adds no point outside the polygon's bounding box. */
  lemma ClosedRingInField(polygon: seq<Point>)
    requires |polygon| > 0
    ensures forall k :: 0 <= k < |CloseRing(polygon)| ==> InBox(BoundingBox(polygon), CloseRing(polygon)[k])
  {
    var ring := CloseRing(polygon);
    var b := BoundingBox(polygon);
    forall k | 0 <= k < |ring|
      ensures InBox(b, ring[k])
    {
      var j :| 0 <= j < |polygon| && polygon[j] == ring[k];
    }
  }

  /** The coverage path never leaves the bounding box of the field polygon. */
  lemma PathInsideField(polygon: seq<Point>)
    requires |polygon| >= 3
    ensures var path := ComputeShortestPath(polygon).value;
      forall m :: 0 <= m < |path| ==> InBox(BoundingBox(polygon), path[m])
  {
    var l := MakeLayout(polygon);
    var b := BoundingBox(polygon);
    assert l.ring == CloseRing(polygon);
    ClosedRingInField(polygon);
    var all := AllSegments(l.ring, l.lines, l.horizontal);
    var segs := PlanSegments(polygon);
    assert segs == SortBy(all, LineKey(l.horizontal));
    AllSegmentsInBox(l.ring, l.lines, l.horizontal, b);
    PermutedSegmentsInBox(all, segs, b);
    BoustrophedonInBox(segs, b);
    assert ComputeShortestPath(polygon).value == Boustrophedon(segs);
  }
}

=== FILE: results.dfy ===
/** Optional values and fallible results, shared by the selection hook and the planner. */
module Results {

  /** A slot that may be empty: a React ref holding `null`, or a present value. */
  datatype Option<+T> = None | Some(value: T)

  /** The outcome of a call that can fail with an error of type E. */
  datatype Result<+T, +E> = Success(value: T) | Failure(error: E)
}

=== FILE: routing.dfy ===
/**
  The hook's effects: the route effect that plans a path for the committed
  area and shows it in the path layer, and the mount effects that attach the
  zone layer, register the pointer handlers and switch drag-panning off for
  the hook's lifetime.
 */
module Routing {
  import opened Results
  import opened Geometry
  import opened Planner
  import Selection

  /** The path layer: the line features in its source, and whether the layer is on the map. */
  datatype PathLayer = PathLayer(lines: seq<seq<Point>>, attached: bool)

  /**
    The route effect's bookkeeping: the layer, whether the last run
    registered a cleanup (which runs before the next run and at unmount), and
    the planner error the last run stopped on, if any.
   */
  datatype RouteState = RouteState(layer: PathLayer, cleanupPending: bool, failure: Option<PlanError>)

  function InitRoute(): RouteState {
    RouteState(PathLayer([], false), false, None)
  }

  /** The layer as the route effect's cleanup leaves it: path source emptied, layer detached. */
  const Cleared: PathLayer := PathLayer([], false)

  /**
    One run of the route effect. Without a map or with an empty area it does
    nothing. Otherwise it calls the planner first: a planner error aborts the
    run before the layer is touched; a path replaces everything in the path
    source by one line through the path's points in order.
   */
  function RouteEffect(layer: PathLayer, hasMap: bool, area: seq<Point>): (r: RouteState)
    ensures !hasMap || |area| == 0 ==> r == RouteState(layer, false, None)
    ensures hasMap && |area| > 0 && ComputeShortestPath(area).Failure? ==>
      r == RouteState(layer, false, Some(ComputeShortestPath(area).error))
    ensures hasMap && |area| > 0 && ComputeShortestPath(area).Success? ==>
      && |r.layer.lines| == 1 && r.layer.lines[0] == ComputeShortestPath(area).value
      && r.layer.attached && r.cleanupPending && r.failure == None
  {
    if !hasMap || |area| == 0 then RouteState(layer, false, None)
    else
      match ComputeShortestPath(area)
      case Failure(e) => RouteState(layer, false, Some(e))
      case Success(route) => RouteState(PathLayer([route], true), true, None)
  }

  /** A change of the committed area: the previous run's cleanup, then a new run. */
  function AreaChanged(st: RouteState, hasMap: bool, area: seq<Point>): RouteState {
    var layer := if st.cleanupPending then Cleared else st.layer;
    RouteEffect(layer, hasMap, area)
  }

  /** Unmounting runs the pending cleanup, if any. */
  function UnmountRoute(st: RouteState): RouteState {
    if st.cleanupPending then RouteState(Cleared, false, st.failure) else st
  }

  /** Runs the route effect for each committed area in turn. */
  function AreaHistory(st: RouteState, hasMap: bool, areas: seq<seq<Point>>): RouteState
    decreases |areas|
  {
    if |areas| == 0 then st else AreaHistory(AreaChanged(st, hasMap, areas[0]), hasMap, areas[1..])
  }

  /** A layer with no pending cleanup holds no route and is off the map. */
  predicate Quiet(st: RouteState) {
    st.cleanupPending || (st.layer.lines == [] && !st.layer.attached)
  }

  /**
    A newly committed area of at least three points supersedes whatever was
    drawn before: afterwards the path source holds its route and nothing else.
   */
  lemma NewAreaReplacesRoute(st: RouteState, area: seq<Point>)
    requires |area| >= 3
    ensures var r := AreaChanged(st, true, area);
      r.layer.lines == [ComputeShortestPath(area).value] && r.layer.attached
  {
  }

  /** An empty area leaves the layer exactly as the previous run's cleanup left it. */
  lemma EmptyAreaDrawsNothing(st: RouteState, hasMap: bool)
    ensures var r := AreaChanged(st, hasMap, []);
      && !r.cleanupPending && r.failure == None
      && r.layer == (if st.cleanupPending then PathLayer([], false) else st.layer)
  {
  }

  lemma QuietStep(st: RouteState, hasMap: bool, area: seq<Point>)
    requires Quiet(st)
    ensures Quiet(AreaChanged(st, hasMap, area))
  {
  }

  lemma {:induction false} HistoryKeepsQuiet(st: RouteState, hasMap: bool, areas: seq<seq<Point>>)
    requires Quiet(st)
    ensures Quiet(AreaHistory(st, hasMap, areas))
    decreases |areas|
  {
    if |areas| > 0 {
      QuietStep(st, hasMap, areas[0]);
      HistoryKeepsQuiet(AreaChanged(st, hasMap, areas[0]), hasMap, areas[1..]);
    }
  }

  /**
    Whatever sequence of areas was committed, and whichever runs failed,
    unmounting leaves no route drawn and the path layer off the map.
   */
  lemma NoOrphanRoute(hasMap: bool, areas: seq<seq<Point>>)
    ensures var r := UnmountRoute(AreaHistory(InitRoute(), hasMap, areas));
      r.layer.lines == [] && !r.layer.attached
  {
    HistoryKeepsQuiet(InitRoute(), hasMap, areas);
  }

  /** An area the selection handlers committed is a rectangle ring, so the planner never rejects it. */
  lemma CommittedAreaPlannable(s: Selection.State)
    requires Selection.Valid(s) && s.area != []
    ensures ComputeShortestPath(s.area).Success?
  {
  }

  /** After any gestures from mount, the route effect for the committed area draws exactly one line and records no error. */
  lemma GesturesYieldOneRoute(view: Selection.MapView, es: seq<Selection.Event>, st: RouteState)
    requires Selection.Run(Selection.Init(), view, es).area != []
    ensures var r := AreaChanged(st, true, Selection.Run(Selection.Init(), view, es).area);
      |r.layer.lines| == 1 && r.failure == None
  {
    Selection.ReachableValid(view, es);
    CommittedAreaPlannable(Selection.Run(Selection.Init(), view, es));
  }

  // ---------------------------------------------------------------------------
  // Mount effects

  /**
    What the mount effects leave behind: whether the zone layer is on the
    map, whether the pointer handlers are registered, and the drag-pan
    interaction's active flag when the map has one.
   */
  datatype Interactions = Interactions(zoneAttached: bool, listening: bool, dragPan: Option<bool>)

  /** Mount with a map: attach the zone layer, register the handlers, switch drag-panning off. */
  function Setup(hasMap: bool, dragPan: Option<bool>): (r: Interactions)
    ensures !hasMap ==> r == Interactions(false, false, dragPan)
    ensures hasMap ==> r.zoneAttached && r.listening
    ensures hasMap ==> (r.dragPan.Some? <==> dragPan.Some?) && r.dragPan != Some(true)
  {
    if !hasMap then Interactions(false, false, dragPan)
    else Interactions(true, true, if dragPan.Some? then Some(false) else None)
  }

  /** Unmount: detach the zone layer, deregister the handlers, switch drag-panning back on. */
  function Teardown(i: Interactions): (r: Interactions)
    ensures !r.zoneAttached && !r.listening
    ensures i.listening && i.dragPan.Some? ==> r.dragPan == Some(true)
    ensures !i.listening ==> r.dragPan == i.dragPan
  {
    if !i.listening then i.(zoneAttached := false)
    else Interactions(false, false, if i.dragPan.Some? then Some(true) else None)
  }

  /** Drag-panning is off while mounted and on again after unmount, even if it was off before mount. */
  lemma PanRestoredAtTeardown(dragPan: bool)
    ensures Setup(true, Some(dragPan)).dragPan == Some(false)
    ensures Teardown(Setup(true, Some(dragPan))).dragPan == Some(true)
  {
  }
}

=== FILE: scenarios.dfy ===
/**
  Concrete runs of the hook and the planner: the acceptance and rejection
  of a drag, the consequences of which point each pointer-up step reads, and
  the path planned for two small fields.
 */
module Scenarios {
  import opened Results
  import opened Geometry
  import opened Planner
  import opened Sorting
  import opened Selection
  import Routing

  /** A map whose pixel and world coordinates coincide. */
  function Flat(): MapView {
    Present((p: Pixel) => (p.px, p.py))
  }

  /** A drag from (0, 0) to (0.0002, 0.0002) commits that rectangle. */
  lemma AcceptedDrag()
    ensures var s := Run(Init(), Flat(), [Down(Pixel(0.0, 0.0)), Move(Pixel(0.0002, 0.0002)), Up(Pixel(0.0002, 0.0002))]);
      && s.area == [(0.0, 0.0), (0.0002, 0.0), (0.0002, 0.0002), (0.0, 0.0002)]
      && !s.drawing && |s.zone| == 1
  {
  }

  /** A drag from (0, 0) to (0.00005, 0.00005) is too small: nothing is committed and the preview is gone. */
  lemma RejectedDrag()
    ensures var s := Run(Init(), Flat(), [Down(Pixel(0.0, 0.0)), Move(Pixel(0.00005, 0.00005)), Up(Pixel(0.00005, 0.00005))]);
      && s.area == [] && !s.drawing && s.zone == multiset{}
  {
  }

  /** The committed ring is the last move's rectangle, not one reaching the pointer-up point. */
  lemma CommitUsesLastMove()
    ensures var s := Run(Init(), Flat(), [Down(Pixel(0.0, 0.0)), Move(Pixel(1.0, 1.0)), Up(Pixel(2.0, 3.0))]);
      && s.area == Rectangle((0.0, 0.0), (1.0, 1.0))
      && s.area != Rectangle((0.0, 0.0), (2.0, 3.0))
  {
  }

  /** The size test reads the pointer-up point: a thin release rejects a large preview. */
  lemma SizeTestUsesUpPoint()
    ensures var s := Run(Init(), Flat(), [Down(Pixel(0.0, 0.0)), Move(Pixel(1.0, 1.0)), Up(Pixel(1.0, 0.00005))]);
      && s.area == [] && s.zone == multiset{}
  {
  }

  /**
    Pointer-down removes the old preview but keeps its handle, so a second
    gesture with no move in between commits the first gesture's rectangle
    again and puts that old feature back in the source.
   */
  lemma StaleHandleRecommits()
    ensures var first := [Down(Pixel(0.0, 0.0)), Move(Pixel(1.0, 1.0)), Up(Pixel(1.0, 1.0))];
      var s := Run(Init(), Flat(), first + [Down(Pixel(5.0, 5.0)), Up(Pixel(7.0, 7.0))]);
      && s.area == Rectangle((0.0, 0.0), (1.0, 1.0))
      && s.zone == multiset{Feature(0, Rectangle((0.0, 0.0), (1.0, 1.0)))}
  {
    var v := Flat();
    var first := [Down(Pixel(0.0, 0.0)), Move(Pixel(1.0, 1.0)), Up(Pixel(1.0, 1.0))];
    var es := first + [Down(Pixel(5.0, 5.0)), Up(Pixel(7.0, 7.0))];
    var s1 := Step(Init(), v, es[0]);
    var s2 := Step(s1, v, es[1]);
    var s3 := Step(s2, v, es[2]);
    assert s3.area == Rectangle((0.0, 0.0), (1.0, 1.0)) && s3.dragBox == Some(Feature(0, s3.area));
    var s4 := Step(s3, v, es[3]);
    assert s4.zone == multiset{} && s4.drawing;
    var s5 := Step(s4, v, es[4]);
    assert es[1..][1..][1..][1..][1..] == [];
    assert Run(Init(), v, es) == Run(s1, v, es[1..]) == Run(s2, v, es[1..][1..]) == Run(s3, v, es[1..][1..][1..]);
    assert Run(s3, v, es[1..][1..][1..]) == Run(s4, v, es[1..][1..][1..][1..]) == s5;
  }

  function WideField(): seq<Point> {
    [(0.0, 0.0), (30.0, 0.0), (30.0, 20.0), (0.0, 20.0)]
  }

  lemma WideRingCoordinates()
    ensures CloseRing(WideField()) == WideRing()
    ensures Xs(WideRing()) == [0.0, 30.0, 30.0, 0.0, 0.0]
    ensures Ys(WideRing()) == [0.0, 0.0, 20.0, 20.0, 0.0]
  {
  }

  lemma WideFieldBox()
    ensures BoundingBox(WideRing()) == Box(0.0, 30.0, 0.0, 20.0)
  {
    WideRingCoordinates();
    var xs, ys := Xs(WideRing()), Ys(WideRing());
    assert MinOf(xs) == 0.0 by { assert xs[0] == 0.0; }
    assert MaxOf(xs) == 30.0 by { assert xs[1] == 30.0; }
    assert MinOf(ys) == 0.0 by { assert ys[0] == 0.0; }
    assert MaxOf(ys) == 20.0 by { assert ys[2] == 20.0; }
  }

  lemma WideFieldLines()
    ensures SwathLines(0.0, 20.0) == [5.0, 15.0]
  {
    assert SwathFrom(25.0, 15.0) == [];
    assert SwathFrom(15.0, 15.0) == [15.0];
    assert SwathFrom(5.0, 15.0) == [5.0, 15.0];
  }

  function WideRing(): seq<Point> {
    WideField() + [(0.0, 0.0)]
  }

  /** Every horizontal line strictly inside the field meets its right side, then its left side. */
  lemma WideFieldCrossings(v: real)
    requires 0.0 < v < 20.0
    ensures Crossings(WideRing(), v, true) == [30.0, 0.0]
  {
    var ring := WideRing();
    assert Crossings(ring[4..], v, true) == [];
    assert Crossings(ring[3..], v, true) == [0.0];
    assert Crossings(ring[2..], v, true) == [0.0];
    assert Crossings(ring[1..], v, true) == [30.0, 0.0];
  }

  lemma WideFieldLine(v: real)
    requires 0.0 < v < 20.0
    ensures LineSegments(WideRing(), v, true) == [Segment((0.0, v), (30.0, v))]
  {
    WideFieldCrossings(v);
    SortTwo(30.0, 0.0);
    var segs := PairUp([0.0, 30.0], v, true);
    assert |segs| == 1 && segs[0] == Segment((0.0, v), (30.0, v));
  }

  /** Sorting two out-of-order crossings swaps them. */
  lemma SortTwo(a: real, b: real)
    requires b < a
    ensures SortBy([a, b], Identity) == [b, a]
  {
    assert [a, b][1..] == [b];
    assert SortBy([b], Identity) == [b];
    assert Insert(a, [b], Identity) == [b, a];
  }

  lemma WideFieldSegments(ring: seq<Point>, lo: real, hi: real)
    requires ring == WideRing() && 0.0 < lo < 20.0 && 0.0 < hi < 20.0
    ensures AllSegments(ring, [lo, hi], true) == [Segment((0.0, lo), (30.0, lo)), Segment((0.0, hi), (30.0, hi))]
  {
    WideFieldLine(lo);
    WideFieldLine(hi);
    var lines := [lo, hi];
    assert lines[1..] == [hi] && lines[1..][1..] == [];
    assert AllSegments(ring, [hi], true) == LineSegments(ring, hi, true) + AllSegments(ring, [], true);
  }

  lemma WidePlanLines(field: seq<Point>)
    requires field == WideField()
    ensures var l := MakeLayout(field);
      l.ring == WideRing() && l.horizontal && l.lines == [5.0, 15.0]
  {
    WideRingCoordinates();
    WideFieldBox();
    WideFieldLines();
  }

  lemma WidePlanSegments(field: seq<Point>, lo: real, hi: real)
    requires field == WideField() && lo == 5.0 && hi == 15.0
    ensures PlanSegments(field) == [Segment((0.0, lo), (30.0, lo)), Segment((0.0, hi), (30.0, hi))]
  {
    WidePlanLines(field);
    SegmentSortKeepsOrder(field);
    WideFieldSegments(MakeLayout(field).ring, lo, hi);
  }

  /** Two segments are driven as the first forwards, then the second backwards. */
  lemma TwoPasses(a: Segment, b: Segment)
    ensures Boustrophedon([a, b]) == [a.start, a.end, b.end, b.start]
  {
    assert [a, b][..1] == [a];
    assert Boustrophedon([a]) == [a.start, a.end];
  }

  /** A 30 by 20 field is wider than tall: two horizontal passes, the second driven backwards. */
  lemma PlanForWideField(field: seq<Point>)
    requires field == WideField()
    ensures ComputeShortestPath(field) == Success([(0.0, 5.0), (30.0, 5.0), (30.0, 15.0), (0.0, 15.0)])
  {
    var lo, hi := 5.0, 15.0;
    WidePlanSegments(field, lo, hi);
    TwoPasses(Segment((0.0, lo), (30.0, lo)), Segment((0.0, hi), (30.0, hi)));
  }

  /** A line passing beside the whole ring meets none of its edges. */
  lemma {:induction false} NoCrossingsBeside(ring: seq<Point>, v: real, horizontal: bool)
    requires forall k :: 0 <= k < |ring| ==> v < Along(ring[k], horizontal)
    ensures Crossings(ring, v, horizontal) == []
  {
    if |ring| >= 2 {
      NoCrossingsBeside(ring[1..], v, horizontal);
    }
  }

  /** Lines that all pass beside the ring cut no segments. */
  lemma {:induction false} NoSegmentsBeside(ring: seq<Point>, lines: seq<real>, horizontal: bool)
    requires forall j, k :: 0 <= j < |lines| && 0 <= k < |ring| ==> lines[j] < Along(ring[k], horizontal)
    ensures AllSegments(ring, lines, horizontal) == []
  {
    if |lines| > 0 {
      NoCrossingsBeside(ring, lines[0], horizontal);
      NoSegmentsBeside(ring, lines[1..], horizontal);
    }
  }

  /** The polygon's points all lie in the half-swath square whose lower-left corner is (x0, y0). */
  predicate InHalfSwathSquare(ps: seq<Point>, x0: real, y0: real) {
    forall k :: 0 <= k < |ps| ==>
      x0 <= ps[k].0 < x0 + SwathWidth / 2.0 && y0 <= ps[k].1 < y0 + SwathWidth / 2.0
  }

  /**
    A field that fits in a square half a swath across gets a single swath
    line, half a swath below its top (or left of its right) edge and so
    beside the field: the planner returns an empty path.
   */
  lemma NarrowFieldHasNoPath(polygon: seq<Point>, x0: real, y0: real)
    requires |polygon| >= 3
    requires InHalfSwathSquare(polygon, x0, y0)
    ensures ComputeShortestPath(polygon) == Success([])
  {
    NarrowLayoutHasNoSegments(polygon, x0, y0);
    SegmentSortKeepsOrder(polygon);
  }

  lemma NarrowLayoutHasNoSegments(polygon: seq<Point>, x0: real, y0: real)
    requires |polygon| >= 3
    requires InHalfSwathSquare(polygon, x0, y0)
    ensures var l := MakeLayout(polygon);
      AllSegments(l.ring, l.lines, l.horizontal) == []
  {
    var l := MakeLayout(polygon);
    LayoutShape(polygon);
    ClosedRingInSquare(polygon, x0, y0);
    SquareBoxIsNarrow(l.ring, x0, y0);
    NarrowBoxHasNoSegments(l.ring, l.box, l.horizontal, l.lines);
  }

  /** Closing the ring keeps it inside any half-swath square holding the polygon. */
  lemma ClosedRingInSquare(polygon: seq<Point>, x0: real, y0: real)
    requires |polygon| > 0 && InHalfSwathSquare(polygon, x0, y0)
    ensures InHalfSwathSquare(CloseRing(polygon), x0, y0)
  {
    var ring := CloseRing(polygon);
    forall k | 0 <= k < |ring|
      ensures x0 <= ring[k].0 < x0 + SwathWidth / 2.0 && y0 <= ring[k].1 < y0 + SwathWidth / 2.0
    {
      var j :| 0 <= j < |polygon| && polygon[j] == ring[k];
    }
  }

  /** Points within a half-swath square have a bounding box less than half a swath across. */
  lemma SquareBoxIsNarrow(ps: seq<Point>, x0: real, y0: real)
    requires |ps| > 0 && InHalfSwathSquare(ps, x0, y0)
    ensures var b := BoundingBox(ps);
      b.maxX - b.minX < SwathWidth / 2.0 && b.maxY - b.minY < SwathWidth / 2.0
  {
    var b := BoundingBox(ps);
    var i :| 0 <= i < |ps| && ps[i].0 == b.minX;
    var j :| 0 <= j < |ps| && ps[j].0 == b.maxX;
    var k :| 0 <= k < |ps| && ps[k].1 == b.minY;
    var l :| 0 <= l < |ps| && ps[l].1 == b.maxY;
  }

  /** Swath lines over a box less than half a swath across cut nothing out of a ring inside it. */
  lemma NarrowBoxHasNoSegments(ring: seq<Point>, box: Box, horizontal: bool, lines: seq<real>)
    requires forall k :: 0 <= k < |ring| ==> InBox(box, ring[k])
    requires box.maxX - box.minX < SwathWidth / 2.0 && box.maxY - box.minY < SwathWidth / 2.0
    requires lines == if horizontal then SwathLines(box.minY, box.maxY) else SwathLines(box.minX, box.maxX)
    ensures AllSegments(ring, lines, horizontal) == []
  {
    if horizontal {
      SingleSwathLine(box.minY, box.maxY);
      LineBesideBoxHasNoSegments(ring, box, horizontal, lines, box.maxY - SwathWidth / 2.0);
    } else {
      SingleSwathLine(box.minX, box.maxX);
      LineBesideBoxHasNoSegments(ring, box, horizontal, lines, box.maxX - SwathWidth / 2.0);
    }
  }

  /** A single swath line below the box's low edge cuts no segment from a ring inside the box. */
  lemma LineBesideBoxHasNoSegments(ring: seq<Point>, box: Box, horizontal: bool, lines: seq<real>, v: real)
    requires forall k :: 0 <= k < |ring| ==> InBox(box, ring[k])
    requires lines == [v] && v < (if horizontal then box.minY else box.minX)
    ensures AllSegments(ring, lines, horizontal) == []
  {
    RingBesideLine(ring, box, horizontal, v);
    NoSegmentsBeside(ring, lines, horizontal);
  }

  /** A line below the box's low edge on the swath axis passes beside every ring point in the box. */
  lemma RingBesideLine(ring: seq<Point>, box: Box, horizontal: bool, v: real)
    requires forall k :: 0 <= k < |ring| ==> InBox(box, ring[k])
    requires v < (if horizontal then box.minY else box.minX)
    ensures forall j, k :: 0 <= j < |[v]| && 0 <= k < |ring| ==> [v][j] < Along(ring[k], horizontal)
  {
    forall j, k | 0 <= j < |[v]| && 0 <= k < |ring|
      ensures [v][j] < Along(ring[k], horizontal)
    {
      assert InBox(box, ring[k]);
    }
  }

  /** An interval shorter than one swath gets the corrective line alone. */
  lemma SingleSwathLine(lo: real, hi: real)
    requires hi - lo < SwathWidth
    ensures SwathLines(lo, hi) == [hi - SwathWidth / 2.0]
  {
    assert SwathFrom(lo + SwathWidth / 2.0, hi - SwathWidth / 2.0) == [];
  }

  /** The committed area of AcceptedDrag. */
  function SmallField(): seq<Point> {
    [(0.0, 0.0), (0.0002, 0.0), (0.0002, 0.0002), (0.0, 0.0002)]
  }

  /** The AcceptedDrag selection is far narrower than half a swath: its path is empty. */
  lemma SmallFieldHasNoPath(field: seq<Point>)
    requires field == SmallField()
    ensures ComputeShortestPath(field) == Success([])
  {
    NarrowFieldHasNoPath(field, 0.0, 0.0);
  }

  /**
    Committing that small area draws one line with no points: the path
    source is not left empty.
   */
  lemma SmallAreaDrawsEmptyLine(st: Routing.RouteState, field: seq<Point>)
    requires field == SmallField()
    ensures Routing.AreaChanged(st, true, field).layer.lines == [[]]
  {
    SmallFieldHasNoPath(field);
  }
}

=== FILE: selection.dfy ===
/**
  The area-selection hook as an explicit state record driven by three
  pointer handlers. The record holds the hook's mutable slots: the drag
  anchor, the drawing flag, the handle of the live preview feature, the
  committed area, and the contents of the zone layer's vector source.
 */
module Selection {
  import opened Results
  import opened Geometry

  /** A screen position of a pointer event. */
  datatype Pixel = Pixel(px: real, py: real)

  /** The map the hook is attached to, if any; it converts pixels to world coordinates. */
  datatype MapView = NoMap | Present(toWorld: Pixel -> Point)

  /** A polygon feature; every `new Feature` gets an id no earlier feature had. */
  datatype Feature = Feature(id: nat, ring: seq<Point>)

  datatype State = State(
    anchor: Option<Point>,      // the drag start coordinate
    drawing: bool,              // whether a drag is in progress
    dragBox: Option<Feature>,   // the last preview feature created, possibly stale
    area: seq<Point>,           // the committed area
    zone: multiset<Feature>,    // features in the zone layer's source
    nextId: nat                 // id of the next feature to be created
  )

  /** The hook's state at mount: nothing recorded, nothing drawn, no area. */
  function Init(): State {
    State(None, false, None, [], multiset{}, 0)
  }

  /**
    The hook's state at a later mount. The refs and the area start afresh, but
    the zone source is a module-level singleton that unmounting only detaches,
    so it keeps whatever the previous mount left in it.
   */
  function Remount(s: State): State {
    Init().(zone := s.zone, nextId := s.nextId)
  }

  /** Removing a feature from a source removes one occurrence and ignores a feature that is not there. */
  function RemoveFeature(zone: multiset<Feature>, f: Option<Feature>): (r: multiset<Feature>)
    ensures r <= zone
    ensures f.Some? && f.value in zone ==> |r| == |zone| - 1 && r[f.value] == zone[f.value] - 1
    ensures f.None? || f.value !in zone ==> r == zone
  {
    if f.Some? then zone - multiset{f.value} else zone
  }

  // ---------------------------------------------------------------------------
  // Pointer handlers

  /**
    Pointer-down: with a map, records the anchor, removes the previous
    preview from the source (its handle stays set) and starts drawing.
    Returns whether the event was handled.
   */
  function PointerDown(s: State, view: MapView, px: Pixel): (r: (State, bool))
    ensures view.NoMap? ==> r == (s, false)
    ensures view.Present? ==>
      && r.1
      && r.0.anchor == Some(view.toWorld(px))
      && r.0.drawing
      && r.0.zone == RemoveFeature(s.zone, s.dragBox)
      && r.0.dragBox == s.dragBox && r.0.area == s.area && r.0.nextId == s.nextId
  {
    match view
    case NoMap => (s, false)
    case Present(toWorld) =>
      (s.(anchor := Some(toWorld(px)), zone := RemoveFeature(s.zone, s.dragBox), drawing := true), true)
  }

  /** A move is acted on only with a map, a recorded anchor and a drag in progress. */
  predicate MoveEnabled(s: State, view: MapView) {
    view.Present? && s.anchor.Some? && s.drawing
  }

  /**
    Pointer-move: recomputes the rectangle from the anchor to the pointer
    and replaces the preview feature with a new one holding it.
   */
  function PointerMove(s: State, view: MapView, px: Pixel): (r: State)
    ensures !MoveEnabled(s, view) ==> r == s
    ensures MoveEnabled(s, view) ==>
      && r.dragBox == Some(Feature(s.nextId, Rectangle(s.anchor.value, view.toWorld(px))))
      && r.zone == RemoveFeature(s.zone, s.dragBox) + multiset{r.dragBox.value}
      && r.nextId == s.nextId + 1
      && r.anchor == s.anchor && r.drawing && r.area == s.area
  {
    if !MoveEnabled(s, view) then s
    else
      var box := Feature(s.nextId, Rectangle(s.anchor.value, view.toWorld(px)));
      s.(zone := RemoveFeature(s.zone, s.dragBox) + multiset{box}, dragBox := Some(box), nextId := s.nextId + 1)
  }

  /** An up is acted on only with a map, a recorded anchor, a preview handle and a drag in progress. */
  predicate UpEnabled(s: State, view: MapView) {
    view.Present? && s.anchor.Some? && s.dragBox.Some? && s.drawing
  }

  /**
    Pointer-up: the size test measures from the anchor to the pointer-up
    point. A gesture that is too small on either axis discards the preview;
    otherwise the ring of the preview drawn by the last move becomes the
    committed area and the source keeps that preview alone. The handler
    always reports the event as not handled.
   */
  function PointerUp(s: State, view: MapView, px: Pixel): (r: (State, bool))
    ensures !r.1
    ensures !UpEnabled(s, view) ==> r.0 == s
    ensures UpEnabled(s, view) && !IsAboveMinimumSize(s.anchor.value, view.toWorld(px), MinSize) ==>
      r.0 == s.(zone := RemoveFeature(s.zone, s.dragBox), drawing := false)
    ensures UpEnabled(s, view) && IsAboveMinimumSize(s.anchor.value, view.toWorld(px), MinSize) ==>
      r.0 == s.(area := s.dragBox.value.ring, zone := multiset{s.dragBox.value}, drawing := false)
  {
    if !UpEnabled(s, view) then (s, false)
    else if !IsAboveMinimumSize(s.anchor.value, view.toWorld(px), MinSize) then
      (s.(zone := RemoveFeature(s.zone, s.dragBox), drawing := false), false)
    else
      (s.(zone := multiset{s.dragBox.value}, area := s.dragBox.value.ring, drawing := false), false)
  }

  // ---------------------------------------------------------------------------
  // Event sequences

  datatype Event = Down(px: Pixel) | Move(px: Pixel) | Up(px: Pixel)

  function Step(s: State, view: MapView, e: Event): State {
    match e
    case Down(px) => PointerDown(s, view, px).0
    case Move(px) => PointerMove(s, view, px)
    case Up(px) => PointerUp(s, view, px).0
  }

  function Run(s: State, view: MapView, es: seq<Event>): State
    decreases |es|
  {
    if |es| == 0 then s else Run(Step(s, view, es[0]), view, es[1..])
  }

  /**
    What holds in every state the handlers reach: the zone source holds
    nothing or exactly the current preview, the preview is a rectangle with
    an id already handed out, a committed area is a rectangle ring, and a
    drag in progress has an anchor.
   */
  predicate Valid(s: State) {
    && (s.zone == multiset{} || (s.dragBox.Some? && s.zone == multiset{s.dragBox.value}))
    && (s.dragBox.Some? ==> s.dragBox.value.id < s.nextId && IsRectangleRing(s.dragBox.value.ring))
    && (s.area == [] || IsRectangleRing(s.area))
    && (s.drawing ==> s.anchor.Some?)
  }

  lemma InitValid()
    ensures Valid(Init())
    ensures Init().zone == multiset{} && Init().area == []
  {
  }

  lemma StepPreservesValid(s: State, view: MapView, e: Event)
    requires Valid(s)
    ensures Valid(Step(s, view, e))
  {
    match e
    case Down(px) => DownPreservesValid(s, view, px);
    case Move(px) => MovePreservesValid(s, view, px);
    case Up(px) => UpPreservesValid(s, view, px);
  }

  lemma DownPreservesValid(s: State, view: MapView, px: Pixel)
    requires Valid(s)
    ensures Valid(PointerDown(s, view, px).0)
  {
  }

  lemma MovePreservesValid(s: State, view: MapView, px: Pixel)
    requires Valid(s)
    ensures Valid(PointerMove(s, view, px))
  {
  }

  lemma UpPreservesValid(s: State, view: MapView, px: Pixel)
    requires Valid(s)
    ensures Valid(PointerUp(s, view, px).0)
  {
  }

  lemma {:induction false} RunPreservesValid(s: State, view: MapView, es: seq<Event>)
    requires Valid(s)
    ensures Valid(Run(s, view, es))
    decreases |es|
  {
    if |es| > 0 {
      StepPreservesValid(s, view, es[0]);
      RunPreservesValid(Step(s, view, es[0]), view, es[1..]);
    }
  }

  /** Every state reachable from mount satisfies Valid. */
  lemma ReachableValid(view: MapView, es: seq<Event>)
    ensures Valid(Run(Init(), view, es))
  {
    InitValid();
    RunPreservesValid(Init(), view, es);
  }

  // ---------------------------------------------------------------------------
  // Properties of the handlers

  /**
    A move that passes the guards leaves the zone source holding exactly the
    new preview, a feature distinct from the one it replaces.
   */
  lemma MoveReplacesPreview(s: State, view: MapView, px: Pixel)
    requires Valid(s) && MoveEnabled(s, view)
    ensures var r := PointerMove(s, view, px);
      && r.zone == multiset{r.dragBox.value}
      && (s.dragBox.Some? ==> r.dragBox.value != s.dragBox.value)
  {
  }

  function Moves(pxs: seq<Pixel>): (es: seq<Event>)
    ensures |es| == |pxs|
    ensures forall k :: 0 <= k < |pxs| ==> es[k] == Move(pxs[k])
  {
    if |pxs| == 0 then [] else [Move(pxs[0])] + Moves(pxs[1..])
  }

  /** However many moves follow one another during a drag, exactly one preview feature is shown. */
  lemma {:induction false} MovesNeverAccumulate(s: State, view: MapView, pxs: seq<Pixel>)
    requires Valid(s) && MoveEnabled(s, view) && |pxs| > 0
    ensures var r := Run(s, view, Moves(pxs));
      && r.dragBox.Some? && r.zone == multiset{r.dragBox.value} && |r.zone| == 1
      && r.area == s.area && MoveEnabled(r, view)
    decreases |pxs|
  {
    var es := Moves(pxs);
    assert es[0] == Move(pxs[0]) && es[1..] == Moves(pxs[1..]);
    var t := PointerMove(s, view, pxs[0]);
    MoveReplacesPreview(s, view, pxs[0]);
    StepPreservesValid(s, view, es[0]);
    if |pxs| > 1 {
      MovesNeverAccumulate(t, view, pxs[1..]);
    }
  }

  /** Events with no pointer-down among them change nothing from mount: every move and up is ignored. */
  lemma {:induction false} NothingWithoutDown(view: MapView, es: seq<Event>)
    requires forall k :: 0 <= k < |es| ==> !es[k].Down?
    ensures Run(Init(), view, es) == Init()
    decreases |es|
  {
    if |es| > 0 {
      assert Step(Init(), view, es[0]) == Init();
      NothingWithoutDown(view, es[1..]);
    }
  }

  /** A gesture through a map that is not there changes nothing, whatever its events. */
  lemma {:induction false} NothingWithoutMap(s: State, es: seq<Event>)
    ensures Run(s, NoMap, es) == s
    decreases |es|
  {
    if |es| > 0 {
      NothingWithoutMap(Step(s, NoMap, es[0]), es[1..]);
    }
  }

  /** A committed area, once set, is only ever replaced by another rectangle ring: it never reverts to empty. */
  lemma {:induction false} AreaNeverCleared(s: State, view: MapView, es: seq<Event>)
    requires Valid(s) && s.area != []
    ensures Run(s, view, es).area != []
    decreases |es|
  {
    if |es| > 0 {
      StepPreservesValid(s, view, es[0]);
      AreaNeverCleared(Step(s, view, es[0]), view, es[1..]);
    }
  }

  /**
    After a later mount the leftover committed feature is not the preview
    handle, so pointer-down does not remove it and every move after it shows
    two features: the invariant that holds from the first mount is lost.
   */
  lemma RemountKeepsLeftover(s: State, view: MapView, down: Pixel, pxs: seq<Pixel>)
    requires Valid(s) && s.dragBox.Some? && s.zone == multiset{s.dragBox.value} && view.Present? && |pxs| > 0
    ensures var r := Run(Remount(s), view, [Down(down)] + Moves(pxs));
      && r.dragBox.Some? && |r.zone| == 2 && s.dragBox.value in r.zone && r.dragBox.value in r.zone
      && !Valid(r)
  {
    var d := Step(Remount(s), view, Down(down));
    assert d.zone == multiset{s.dragBox.value} && d.dragBox.None? && MoveEnabled(d, view);
    assert ([Down(down)] + Moves(pxs))[1..] == Moves(pxs);
    LeftoverOutlivesMoves(d, view, s.dragBox.value, pxs);
  }

  /**
    A feature left in the source that is not the preview stays there through
    any run of moves, beside whichever preview the last move created.
   */
  lemma {:induction false} LeftoverOutlivesMoves(t: State, view: MapView, left: Feature, pxs: seq<Pixel>)
    requires MoveEnabled(t, view) && left.id < t.nextId && |pxs| > 0
    requires t.dragBox.None? ==> t.zone == multiset{left}
    requires t.dragBox.Some? ==> t.dragBox.value.id != left.id && t.zone == multiset{left, t.dragBox.value}
    ensures var r := Run(t, view, Moves(pxs));
      && r.dragBox.Some? && r.dragBox.value.id != left.id && r.zone == multiset{left, r.dragBox.value}
      && |r.zone| == 2 && MoveEnabled(r, view)
    decreases |pxs|
  {
    var es := Moves(pxs);
    assert es[0] == Move(pxs[0]) && es[1..] == Moves(pxs[1..]);
    var u := PointerMove(t, view, pxs[0]);
    MoveKeepsLeftover(t, view, left, pxs[0]);
    if |pxs| > 1 {
      LeftoverOutlivesMoves(u, view, left, pxs[1..]);
    }
  }

  /** One move replaces the preview and leaves a feature that is not the preview in place. */
  lemma MoveKeepsLeftover(t: State, view: MapView, left: Feature, px: Pixel)
    requires MoveEnabled(t, view) && left.id < t.nextId
    requires t.dragBox.None? ==> t.zone == multiset{left}
    requires t.dragBox.Some? ==> t.dragBox.value.id != left.id && t.zone == multiset{left, t.dragBox.value}
    ensures var u := PointerMove(t, view, px);
      && u.dragBox.Some? && u.dragBox.value.id != left.id && u.zone == multiset{left, u.dragBox.value}
      && left.id < u.nextId && MoveEnabled(u, view)
  {
    var u := PointerMove(t, view, px);
    assert u.zone == RemoveFeature(t.zone, t.dragBox) + multiset{u.dragBox.value};
    assert RemoveFeature(t.zone, t.dragBox) == multiset{left};
  }
}

=== FILE: sorting.dfy ===
/**
  Stable sorting of a sequence by a real-valued key, as Rust's `slice::sort_by`
  with `partial_cmp` on keys that are never NaN.
 */
module Sorting {

  predicate SortedBy<T>(s: seq<T>, key: T -> real) {
    forall i, j :: 0 <= i < j < |s| ==> key(s[i]) <= key(s[j])
  }

  /** Inserts x into a sorted sequence before the first element whose key is not smaller. */
  function Insert<T(==)>(x: T, s: seq<T>, key: T -> real): (r: seq<T>)
    requires SortedBy(s, key)
    ensures |r| == |s| + 1
    ensures SortedBy(r, key)
    ensures multiset(r) == multiset(s) + multiset{x}
    ensures (|s| == 0 || key(x) <= key(s[0])) ==> r == [x] + s
    ensures |s| > 0 && key(s[0]) < key(x) ==> r[0] == s[0]
  {
    if |s| == 0 || key(x) <= key(s[0]) then [x] + s
    else
      var rest := Insert(x, s[1..], key);
      assert s == [s[0]] + s[1..];
      assert key(s[0]) <= key(rest[0]);
      ConsSorted(s[0], rest, key);
      [s[0]] + rest
  }

  /** The index of the first element whose key is not smaller than x's, or |s| if there is none. */
  function InsertionPoint<T>(x: T, s: seq<T>, key: T -> real): (i: nat)
    ensures i <= |s|
    ensures forall j :: 0 <= j < i ==> key(s[j]) < key(x)
    ensures i < |s| ==> key(x) <= key(s[i])
  {
    if |s| == 0 || key(x) <= key(s[0]) then 0 else 1 + InsertionPoint(x, s[1..], key)
  }

  /**
    Insert places x at the insertion point: after every element with a smaller
    key and before every other, so an element inserted first stays ahead of
    later ones with an equal key.
   */
  lemma {:induction false} InsertAtPoint<T>(x: T, s: seq<T>, key: T -> real)
    requires SortedBy(s, key)
    ensures var i := InsertionPoint(x, s, key);
      Insert(x, s, key) == s[..i] + [x] + s[i..]
    decreases |s|
  {
    if |s| > 0 && key(s[0]) < key(x) {
      var t := s[1..];
      var i := InsertionPoint(x, t, key);
      TailSorted(s, key);
      InsertAtPoint(x, t, key);
      assert s == [s[0]] + t;
      SplitAfterHead(s[0], t, x, i);
    } else {
      assert s[..0] == [] && s[0..] == s;
    }
  }

  /** Splicing x into the tail at i is splicing it into the whole sequence at i + 1. */
  lemma SplitAfterHead<T>(h: T, t: seq<T>, x: T, i: nat)
    requires i <= |t|
    ensures [h] + (t[..i] + [x] + t[i..]) == ([h] + t)[..i + 1] + [x] + ([h] + t)[i + 1..]
  {
    assert ([h] + t)[..i + 1] == [h] + t[..i];
    assert ([h] + t)[i + 1..] == t[i..];
  }

  /** Dropping the head of a sorted sequence leaves it sorted. */
  lemma TailSorted<T>(s: seq<T>, key: T -> real)
    requires |s| > 0 && SortedBy(s, key)
    ensures SortedBy(s[1..], key)
  {
    forall a, b | 0 <= a < b < |s[1..]|
      ensures key(s[1..][a]) <= key(s[1..][b])
    {
      assert s[1..][a] == s[a + 1] && s[1..][b] == s[b + 1];
    }
  }

  /** Putting an element no larger than the head in front of a sorted sequence keeps it sorted. */
  lemma ConsSorted<T>(y: T, rest: seq<T>, key: T -> real)
    requires SortedBy(rest, key)
    requires |rest| > 0 ==> key(y) <= key(rest[0])
    ensures SortedBy([y] + rest, key)
  {
    var r := [y] + rest;
    forall i, j | 0 <= i < j < |r|
      ensures key(r[i]) <= key(r[j])
    {
      if i > 0 {
        assert r[i] == rest[i - 1] && r[j] == rest[j - 1];
      } else {
        assert r[j] == rest[j - 1];
      }
    }
  }

  /**
    Insertion sort by key. Equal keys keep their input order, so the result
    coincides with that of any stable sort.
   */
  function SortBy<T(==)>(s: seq<T>, key: T -> real): (r: seq<T>)
    ensures SortedBy(r, key)
    ensures multiset(r) == multiset(s)
    ensures |r| == |s|
    ensures SortedBy(s, key) ==> r == s
  {
    if |s| == 0 then []
    else
      assert s == [s[0]] + s[1..];
      Insert(s[0], SortBy(s[1..], key), key)
  }
}
